=== FILE: README.md ===
# A verified model of the filesystem simulator's storage engine

This project models the storage engine of `filesystem_simulator_rs` in Dafny
and proves properties of the model. The engine is a toy filesystem: a flat
table of entries keyed by absolute path, each entry pointing back at its
parent directory. Underneath sits a paged block store. Its allocator hands out
1024-byte pages from a FIFO free list first, and from a high-water mark
(`next_offset`) after that. The container file holding the bytes is modelled
as a pure byte map.

On top of the table sit these operations:
- path resolution: `get_full_path` and `extract_parent_paths`;
- creation: `create_file` and its wrappers `touch` and `mkdir`;
- page allocation;
- an append-only paged write and the paged read;
- `cd`, the recursive `rm`, `cp`, `mv` and `is_file_exists`;
- the child filter behind `ls`.

Every operation is a pure transition. It takes an engine state (table, block
store, container, cursor, acting user) and returns the next state together
with a status. A failing operation can still have changed the state, as the
source's `rm` does. The failure kinds are AlreadyExists, NotFound,
PermissionDenied, and the `Other` error "Not a directory", which is modelled
as `NotADirectory`. The administrator is the user literally named `"root"`.

The files:
- `results.dfy` (module `Results`): errors, `Option`, `Status`, `Result`.
- `paths.dfy` (module `Paths`): the resolver and the parent-path rule. The
  latter is the standard library's `Path::parent`, rendered as a string.
- `pages.dfy` (module `Pages`): the block store and its allocator, the
  content of a file spread over pages, the write loop and the read loop.
- `engine.dfy` (module `Engine`): the entry table, the engine invariant
  `Valid`, and the operations.
- `engine_proofs.dfy` (module `EngineProofs`): the proofs that operations
  keep the invariant, the write/read round trips, the behaviour of the
  recursive removal, the three findings below, and a whole session.

`Engine.IsFileExists` models `is_file_exists` (`src/fs/filesystem.rs:445-447`).
It is the membership test of the resolved key. Its contract ties it to
`ReadFile` and `Cd`, and it appears in the contracts of `Touch` and `Mkdir`.

Three places where the model follows the code rather than the intended behaviour:
- `rm` takes the entry out of the table before it checks the permission. A
  refused removal of a File therefore still loses the entry, and its pages
  are not freed (`Engine.Rm`).
- `rm` makes no owner check at all for a directory. Anyone may remove a
  directory whose subtree is empty (`EngineProofs.RmEmptyDirectoryAnyUser`).
- `write_file` unwraps the lookup before its NotFound branch, so that branch
  is unreachable. A write to an absent name panics, and the model makes the
  name's presence a precondition (`Engine.WriteDefined`).

`cp` and `mv` use the read and the removal as written. So a copy of a file
whose size is a positive multiple of 1024 loses the source's last page, just
as the source's copy does.

## Model

| member | source | states |
|---|---|---|
| Paths.GetFullPath | src/fs/filesystem.rs:75-85 | an absolute name is kept unchanged; a relative name is appended after exactly one separator: at the root the result is "/" + name (length one more than the name), elsewhere it is the cursor, one separator and the name (the cursor as its prefix, length the sum plus one); from an anchored cursor every result is absolute |
| Paths.ResolveThenParent | src/fs/filesystem.rs:75-93 | resolving a simple name against a normal cursor and taking the parent gives the cursor back, also at the root, where the resolution yields "/" + name |
| Paths.ExtractParentPaths | src/fs/filesystem.rs:87-93 | the parent is a prefix of the path, strictly shorter for a non-empty path, ends in a separator only when it is the root, and is absolute or empty for an absolute path |
| Paths.ParentOfJoin | src/fs/filesystem.rs:87-93 | the parent of d + "/" + n is d without trailing separators, or the root when nothing is left |
| Paths.ParentOfSimpleName | src/fs/filesystem.rs:87-93 | a path without separators has the empty parent |
| Paths.ParentAfterPrefix | src/fs/filesystem.rs:87-93 | for an absolute p ending in a separator and a relative name that contains a separator but does not end in one, the parent of p + name is p + the parent of name |
| Paths.ParentIgnoresTrailingSlash | src/fs/filesystem.rs:87-93 | a trailing separator does not change the parent |
| Paths.ResolveIdempotent | src/fs/filesystem.rs:75-85 | a resolved key resolves to itself from any cursor |
| Engine.New | src/fs/filesystem.rs:49-73 | a fresh engine satisfies the invariant and holds only the root directory, empty, with no parent, owned by the given user and readable and writable; the acting user is the given one, the cursor is at the root and the store is empty (mark 0, no free pages) |
| Engine.ParentFor | src/fs/filesystem.rs:111-125 | the recorded parent is anchored when the cursor is, and is the cursor for a relative name without separators |
| EngineProofs.CreateParentRule | src/fs/filesystem.rs:111-125 | from a normal cursor (the root, or an absolute path without a trailing separator), for a non-empty name without a trailing separator, the four-case parent rule equals the parent of the key the entry is stored under |
| Engine.CreateFile | src/fs/filesystem.rs:95-137 | an existing key gives AlreadyExists and no change; otherwise exactly one entry is added, with size 0, no pages, the given owner, type and permission, and the parent rule; every other entry, the store, the cursor and the user are unchanged |
| EngineProofs.CreateFileValid | src/fs/filesystem.rs:95-137 | creation keeps the engine invariant |
| Engine.Touch | src/fs/filesystem.rs:342-349 | afterwards the name exists; it succeeds exactly when the name did not exist; on success exactly the resolved key is added, holding an empty File owned by the acting user, readable and writable, whose parent follows the creation rule, while every other entry, the store, the cursor and the user are unchanged; on failure nothing changes |
| Engine.Mkdir | src/fs/filesystem.rs:351-358 | as Touch, with an empty Directory: the same frame, owner, permissions and parent rule |
| Engine.Ls | src/fs/filesystem.rs:287-289 | the listing is a subset of the table's keys; which keys it holds (the entries whose parent is the cursor) is its body, and how creation changes it is stated by EngineProofs.CreatedIsListed |
| EngineProofs.CreatedIsListed | src/fs/filesystem.rs:287-289 | creating an entry (touch or mkdir) under a fresh name without separators adds exactly that key to the listing of the cursor, and nothing else |
| Engine.IsFileExists | src/fs/filesystem.rs:445-447 | a name exists exactly when reading it does not report NotFound; a missing name other than "." and ".." cannot be entered, which fails with NotFound and changes nothing |
| Pages.AllocatePage | src/fs/filesystem.rs:170-183 | a non-empty free list yields its head and keeps the mark; an empty one yields the mark and advances it by the size; the mark never decreases; the page is zero-filled and no other byte changes |
| Pages.AllocateKeepsStoreValid | src/fs/filesystem.rs:170-177 | a page allocation keeps the store aligned, below the mark and free of duplicates; the page handed out is aligned, below the new mark, off the free list, and taken from the old free list or the old mark |
| Pages.FreedPagesReusedFirst | src/fs/filesystem.rs:170-177 | as many allocations as there are free pages return the free list in order and leave the mark alone |
| Pages.AllocateFromMark | src/fs/filesystem.rs:170-177 | with an empty free list, k allocations return consecutive pages from the mark and advance it by k pages |
| Pages.AllocationsFromInit | src/fs/filesystem.rs:170-177 | from a fresh store, allocation i returns i * 1024, so every offset is a multiple of 1024 and no offset repeats |
| Pages.AppendLoop | src/fs/filesystem.rs:223-242 | the write loop adds the data's length to the size, keeps the old pages as a prefix, never lowers the mark, and keeps the page count at ceil(size / 1024) |
| Pages.AppendChunk | src/fs/filesystem.rs:224-241 | one loop step writes min(room left in the last page, bytes left) bytes, so the size grows by that much; the old page list is kept as a prefix and the list is non-empty afterwards; the mark never moves back; a page list sized for the old size is sized for the new one |
| Pages.AppendChunkFits | src/fs/filesystem.rs:224-241 | one loop step allocates a page exactly at a page boundary and keeps the file's pages aligned, distinct, below the mark and off the free list |
| Pages.AppendLoopFits | src/fs/filesystem.rs:223-242 | the loop keeps the file fitting and takes new pages only from the free list or above the old mark |
| Pages.AppendLoopFrame | src/fs/filesystem.rs:223-242 | the loop writes only inside the file's final pages |
| Pages.AppendLoopContent | src/fs/filesystem.rs:223-242 | after the loop the file's content is the old content followed by exactly the data |
| Pages.ReadLoop | src/fs/filesystem.rs:265-276 | the page walk's length is one full page for every page but the last, plus the requested length of the last; with no pages it is empty |
| Pages.ReadLoopIsContent | src/fs/filesystem.rs:265-276 | the page walk is the prefix of the content that the pages hold |
| Pages.ReadLoopOfFile | src/fs/filesystem.rs:265-276 | the walk with last length size % 1024 returns the whole content, except that it drops the last page when the size is a positive multiple of 1024 |
| Pages.ReadLoopFrame | src/fs/filesystem.rs:265-276 | the walk depends only on the bytes of the file's own pages |
| Engine.WriteFile | src/fs/filesystem.rs:185-256 | a caller who is neither root nor the owner gets PermissionDenied and no change; otherwise the size grows by the data length, the old pages are a prefix of the new ones, the page count stays ceil(size / 1024), every other entry is unchanged and the mark never decreases |
| EngineProofs.WriteFileValid | src/fs/filesystem.rs:185-256 | a write keeps the engine invariant, in particular pages of distinct entries and the free list stay disjoint |
| EngineProofs.WriteThenRead | src/fs/filesystem.rs:216-247 | after a permitted write, the file's content is the old content followed by the data |
| EngineProofs.WriteKeepsOtherReads | src/fs/filesystem.rs:216-247 | a write changes what no other name reads |
| Engine.ReadFile | src/fs/filesystem.rs:258-285 | an absent key gives NotFound, and only then; a file with pages reads (pages - 1) * 1024 + size % 1024 bytes; a file with no pages reads as empty |
| EngineProofs.ReadAsWritten | src/fs/filesystem.rs:258-285 | the read returns the file's content, less the last page when the size is a positive multiple of 1024 |
| EngineProofs.WriteThenReadAsWritten | src/fs/filesystem.rs:216-276 | writing d to an empty file and reading it back gives d when d is empty or its length is not a multiple of 1024, and d without its last page otherwise |
| Engine.ReadFileIntended | src/fs/filesystem.rs:258-285 | the corrected read: NotFound exactly for an absent key, otherwise exactly size bytes |
| Engine.Cd | src/fs/filesystem.rs:306-340 | "." changes nothing; ".." moves to the current entry's parent or gives NotFound; an existing Directory becomes the cursor; a File gives NotADirectory; an absent name gives NotFound; the cursor is unchanged on every error and the table never changes |
| EngineProofs.CdValid | src/fs/filesystem.rs:306-340 | a cursor move keeps the engine invariant |
| EngineProofs.MkdirCdRoundTrip | src/fs/filesystem.rs:306-358 | entering a just-made directory by name and then going up returns to the state after mkdir |
| Engine.PrefixScan | src/fs/filesystem.rs:387-393 | the scan lists exactly the keys of the table that start with the prefix, in the iteration order given: the result is a subsequence of that order |
| Engine.Rm | src/fs/filesystem.rs:370-405 | an absent key gives NotFound and no change; otherwise the key is gone afterwards; for a File the table loses exactly that key, the removal succeeds exactly for root or the owner, a success appends the file's pages to the free list in order, and a refusal gives PermissionDenied with the store unchanged; surviving entries, the cursor, the mark and the container never change |
| Engine.RmEach | src/fs/filesystem.rs:394-396 | on success every listed key is gone; it only removes entries and only appends to the free list |
| EngineProofs.RmValid | src/fs/filesystem.rs:370-405 | removal keeps the engine invariant, whatever the scan order |
| EngineProofs.RmKeepsOutside | src/fs/filesystem.rs:370-405 | keys outside the removed key and its prefix key + "/" are never removed |
| EngineProofs.RmDirectoryExact | src/fs/filesystem.rs:386-398 | a successful removal of a directory leaves exactly the keys outside the directory and its subtree |
| EngineProofs.RmEmptyDirectoryAnyUser | src/fs/filesystem.rs:386-398 | a directory with nothing under it is removed with success for any caller, with no owner check |
| EngineProofs.RmFlatDirectory | src/fs/filesystem.rs:386-398 | a directory holding only files the caller may remove is removed with success, in any scan order listing each key once |
| EngineProofs.RmThenAllocateReuses | src/fs/filesystem.rs:383-385 | after a removed file's pages join the free list, the next allocations return the old free list and then those pages, before the mark moves |
| EngineProofs.RmNestedDirectoryFails | src/fs/filesystem.rs:394-396 | root's removal of /a over /a, /a/b, /a/b/c, with /a/b scanned before /a/b/c, removes everything under /a yet returns NotFound; the intended removal returns success on the same state |
| Engine.RmEachIntended | src/fs/filesystem.rs:394-396 | the corrected loop over the scanned keys: a key already gone is skipped, otherwise it stops at the first failure; when it succeeds, none of the keys is left in the table, and it only ever removes entries and leaves the cursor and the user unchanged |
| Engine.RmIntended | src/fs/filesystem.rs:370-405 | the corrected removal: NotFound exactly for an absent key, the key gone otherwise, and only removals |
| EngineProofs.RmIntendedByRoot | src/fs/filesystem.rs:370-405 | for the administrator the corrected removal succeeds exactly when the key exists |
| EngineProofs.RmIntendedClearsSubtree | src/fs/filesystem.rs:386-398 | the administrator's corrected removal of a directory succeeds and leaves no key of its subtree |
| Engine.Cp | src/fs/filesystem.rs:407-438 | an absent source gives NotFound; an existing destination gives AlreadyExists; otherwise the destination is added as a File with the source's owner and permission, and the write into it succeeds exactly when the caller may write to a file of that owner; its size is then the length of the source's read |
| EngineProofs.CpValid | src/fs/filesystem.rs:407-438 | a copy cannot panic in a valid state and keeps the engine invariant |
| EngineProofs.CpCopiesBytes | src/fs/filesystem.rs:413-437 | a permitted copy to a new name makes the destination's content the bytes the source reads and leaves the source's read unchanged |
| Engine.Mv | src/fs/filesystem.rs:440-443 | a failing copy is returned as is; after a successful copy the source is removed; the cursor and the user never change |
| EngineProofs.MvFile | src/fs/filesystem.rs:440-443 | moving a file succeeds exactly when its copy does; the source's entry then leaves the table the copy produced, and nothing else does, and its pages join the tail of the free list |
| EngineProofs.MvKeepsDestination | src/fs/filesystem.rs:440-443 | after a successful copy, the destination survives the removal of the source as copied, even when that removal fails, unless it lies under the source |
| EngineProofs.MvValid | src/fs/filesystem.rs:440-443 | a move keeps the engine invariant |
| EngineProofs.TrailingSlashParent | src/fs/filesystem.rs:116-121 | a name n + "/" created in a directory other than the root records cursor + "/" as its parent, not the cursor |
| EngineProofs.TrailingSlashIntended | src/fs/filesystem.rs:111-125 | from a normal cursor (the root, or an absolute path without a trailing separator), under the corrected rule a simple name n followed by "/" gets the same parent as n, the cursor |
| Engine.ParentForIntended | src/fs/filesystem.rs:111-125 | the corrected parent is anchored for an anchored cursor and is a proper prefix of the key |
| EngineProofs.SessionTouch | src/fs/filesystem.rs:306-358 | mkdir /d, cd d and touch f from a fresh engine give the table root, /d, /d/f with /d's parent the root and /d/f an empty file of the user |
| EngineProofs.Session | src/fs/filesystem.rs:185-405 | in a fresh engine, mkdir /d, cd d, touch f, writing fewer than 1024 bytes, reading them back, cd .. and rm d: the read returns the bytes, the removal succeeds and only the root remains, with the cursor at the root |

## Left out

- Container I/O (opening the file, seeking, `write_all`, `read_exact`) and the `io::Error`s it can raise are not modelled. The container is a pure byte map, and the failures of these calls, including a failure midway through the write loop that leaks pages already allocated, are not represented.
- `save` and `load` (serde JSON persistence) are not modelled: they are persistence only.
- `ls`'s rendering, ANSI colours and the `Stdio` buffer are left out. Only its filter (entries whose parent is the cursor) is modelled, as `Engine.Ls`.
- `src/sh/shell.rs` (command dispatch, the prompt loop), `src/user/user.rs` (user records and their JSON files), `src/main.rs` (the command line) and `src/fs/stdio.rs` (output buffering) are not part of this model.
- The iteration order of the HashMap in `rm`'s prefix scan is a parameter `order`. The same `order` serves the prefix scan at every level of the recursion (`Engine.Rm` passes it on through `Engine.RmEach`), since the table is the one HashMap throughout. Properties that need every key scanned take `Covers(order, files)` or `NoDups(order)` as a hypothesis.
- `u64` overflow of sizes and offsets is not modelled: they are unbounded naturals.
- Panicking `unwrap`s are preconditions rather than behaviour: a write to an absent name or a write whose last page is missing (`Engine.WriteDefined`), `rm` by anyone but root requires every File in the table to have an owner (`Engine.FilesOwned`), which is stronger than the source needs: it panics only when the removal reaches an ownerless File. Every state satisfying the invariant meets this condition (`EngineProofs.ValidKeysOwned`), and `cp` from a source without an owner (`Engine.CpDefined`).
- Paths.ExtractParentPaths: does not model `Path::parent`'s handling of `.` components, which the standard library skips; every component is treated as a normal one.
- A byte never written reads as 0. This cannot arise inside an allocated page, because allocation zero-fills it.
- Engine.Ls: its own contract only says the listing is a subset of the table's keys, because its body is exactly the filter; how creation changes the listing is carried by `EngineProofs.CreatedIsListed`.

## Findings

| source | as written | input that shows it | evidently intended | confidence | as-written member | corrected member |
|---|---|---|---|---|---|---|
| src/fs/filesystem.rs:268-272 | the last page contributes `size % 1024` bytes, which is 0 when the size is a positive multiple of 1024 | touch a file in a fresh engine and write exactly 1024 bytes into it: the read returns nothing | the last page contributes `size - 1024 * (pages - 1)` bytes, so a read returns exactly `size` bytes | high; not executed | EngineProofs.FullPageReadsBackEmpty | Engine.ReadFileIntended (content proved by EngineProofs.WriteThenRead) |
| src/fs/filesystem.rs:394-396 | the recursive removal of each scanned key propagates NotFound, but a key can already be gone, taken by the removal of a subdirectory scanned before it | root removes /a from /, /a, /a/b, /a/b/c (all directories but the file /a/b/c) with /a/b scanned before /a/b/c: everything under /a is removed, yet the call returns NotFound | keys already removed are skipped and the call succeeds | high; not executed | EngineProofs.RmNestedDirectoryFails | Engine.RmIntended (proved by EngineProofs.RmIntendedClearsSubtree) |
| src/fs/filesystem.rs:116-121 | for a relative name containing a separator outside the root, the parent is `cursor + "/" + parent(name)`, and `parent("d/")` is empty | in /x, `mkdir d/` records the parent "/x/", so listing /x does not show it and `cd ..` from it moves to a key that does not exist | the parent of the stored key, "/x" | medium; not executed | EngineProofs.TrailingSlashParent | Engine.ParentForIntended (proved by EngineProofs.TrailingSlashIntended) |

=== FILE: engine.dfy ===
/** The filesystem engine: a flat table of entries keyed by absolute path,
    each entry pointing back at its parent directory, over the paged block
    store. Every operation is a transition from one engine state to the next
    together with its status; a failing operation may still have changed the
    state (the recursive removal does). */
module Engine {
  import opened Results
  import opened Paths
  import opened Pages

  /** The administrator principal: bypasses the owner checks. */
  const Root := "root"

  datatype FileType = File | Directory

  datatype FilePermission = Readable | Writable | Executable

  /** One file or directory. `name` repeats the table key; `pages` lists the
      block-store offsets of the content in write order. */
  datatype Entry = Entry(
    name: string,
    fileType: FileType,
    permission: Option<seq<FilePermission>>,
    owner: Option<string>,
    size: nat,
    pages: seq<nat>,
    parent: Option<string>)

  /** The engine state: entry table, block store and backing container, the
      current-directory cursor and the acting user. */
  datatype FileSystem = FileSystem(files: map<string, Entry>, store: Store, cwd: string, user: string)

  /** A transition: the state after the operation and its status. */
  datatype Step = Step(fs: FileSystem, status: Status)

  // ---------------------------------------------------------------------
  // The invariant

  /** What holds of every entry of a reachable state: it is keyed by its own
      absolute name, has an owner, a parent usable as a cursor, and its pages are in
      use, aligned, listed once and as many as its size needs. */
  ghost predicate EntryValid(fs: FileSystem, k: string)
    requires k in fs.files
  {
    var e := fs.files[k];
    && IsAbsolute(k)
    && e.name == k
    && e.owner.Some?
    && (e.parent.Some? ==> IsAnchored(e.parent.value))
    && Fits(fs.store, e.pages, e.size)
  }

  /** The engine invariant: the allocator invariant, an anchored cursor,
      valid entries, and no page shared between two entries (nor, through
      Fits, between an entry and the free list). */
  ghost predicate Valid(fs: FileSystem) {
    && StoreValid(fs.store)
    && IsAnchored(fs.cwd)
    && (forall k :: k in fs.files ==> EntryValid(fs, k))
    && (forall k1, k2 :: k1 in fs.files && k2 in fs.files && k1 != k2 ==>
          Disjoint(fs.files[k1].pages, fs.files[k2].pages))
  }

  // ---------------------------------------------------------------------
  // Construction and lookups

  /** A fresh engine: only the root directory, owned by `user`, with the
      cursor at the root and an empty block store. */
  function New(user: string): (fs: FileSystem)
    ensures Valid(fs)
    ensures fs.files.Keys == {"/"} && fs.files["/"].fileType == Directory && fs.files["/"].parent == None
    ensures fs.files["/"].owner == Some(user) && fs.files["/"].permission == Some([Readable, Writable])
    ensures fs.files["/"].size == 0 && fs.files["/"].pages == []
    ensures fs.cwd == "/" && fs.user == user && fs.store.nextOffset == 0 && fs.store.freeList == []
  {
    var root := Entry("/", Directory, Some([Readable, Writable]), Some(user), 0, [], None);
    FileSystem(map["/" := root], InitStore, "/", user)
  }

  /** Whether `name` resolves to an entry: exactly when reading it does not
      report a missing entry, and otherwise entering it (other than by "."
      or "..") does. */
  function IsFileExists(fs: FileSystem, name: string): (r: bool)
    ensures r <==> ReadFile(fs, name) != Err(NotFound)
    ensures !r && name != "." && name != ".." ==> Cd(fs, name) == Step(fs, Failed(NotFound))
  {
    GetFullPath(fs.cwd, name) in fs.files
  }

  /** The keys listed in the current directory: the entries whose parent is
      the cursor. */
  function Ls(fs: FileSystem): (r: set<string>)
    ensures r <= fs.files.Keys
  {
    set k | k in fs.files && fs.files[k].parent == Some(fs.cwd)
  }

  /** Whether `user` may write or remove an entry owned by `owner`. */
  predicate MayModify(user: string, owner: Option<string>) {
    user == Root || owner == Some(user)
  }

  // ---------------------------------------------------------------------
  // Creation

  /** The parent recorded for an entry created as `name` with cursor `cwd`. */
  function ParentFor(cwd: string, name: string): (r: string)
    ensures IsAnchored(cwd) ==> IsAnchored(r)
    ensures !IsAbsolute(name) && '/' !in name ==> r == cwd
  {
    if IsAbsolute(name) then ExtractParentPaths(name)
    else if cwd == "/" then "/" + ExtractParentPaths(name)
    else if '/' in name then cwd + "/" + ExtractParentPaths(name)
    else cwd
  }

  /** The parent evidently meant for an entry created as `name`: the parent
      of the key it is stored under. */
  function ParentForIntended(cwd: string, name: string): (r: string)
    ensures IsAnchored(cwd) ==> IsAnchored(r)
    ensures r < GetFullPath(cwd, name)
  {
    ExtractParentPaths(GetFullPath(cwd, name))
  }

  /** Inserts an empty entry under the resolved name, unless that key is
      already taken. */
  function CreateFile(fs: FileSystem, name: string, fileType: FileType, owner: string,
                      permission: Option<seq<FilePermission>>): (r: Step)
    ensures var key := GetFullPath(fs.cwd, name);
            key in fs.files ==> r == Step(fs, Failed(AlreadyExists))
    ensures var key := GetFullPath(fs.cwd, name);
            key !in fs.files ==>
              && r.status == Done
              && r.fs.files.Keys == fs.files.Keys + {key}
              && r.fs.files[key] == Entry(key, fileType, permission, Some(owner), 0, [], Some(ParentFor(fs.cwd, name)))
              && (forall k :: k in fs.files ==> r.fs.files[k] == fs.files[k])
              && r.fs.store == fs.store && r.fs.cwd == fs.cwd && r.fs.user == fs.user
  {
    var key := GetFullPath(fs.cwd, name);
    if key in fs.files then Step(fs, Failed(AlreadyExists))
    else
      var e := Entry(key, fileType, permission, Some(owner), 0, [], Some(ParentFor(fs.cwd, name)));
      Step(fs.(files := fs.files[key := e]), Done)
  }

  /** An empty file owned by the acting user, readable and writable. */
  function Touch(fs: FileSystem, name: string): (r: Step)
    ensures IsFileExists(r.fs, name)
    ensures r.status == Done <==> !IsFileExists(fs, name)
    ensures r.status != Done ==> r.fs == fs
    ensures r.fs.cwd == fs.cwd
    ensures var key := GetFullPath(fs.cwd, name);
            r.status == Done ==>
              && r.fs.files.Keys == fs.files.Keys + {key}
              && r.fs.files[key] ==
                   Entry(key, File, Some([Readable, Writable]), Some(fs.user), 0, [], Some(ParentFor(fs.cwd, name)))
              && (forall k :: k in fs.files ==> r.fs.files[k] == fs.files[k])
              && r.fs.store == fs.store && r.fs.user == fs.user
  {
    CreateFile(fs, name, File, fs.user, Some([Readable, Writable]))
  }

  /** An empty directory owned by the acting user, readable and writable. */
  function Mkdir(fs: FileSystem, name: string): (r: Step)
    ensures IsFileExists(r.fs, name)
    ensures r.status == Done <==> !IsFileExists(fs, name)
    ensures r.status != Done ==> r.fs == fs
    ensures r.fs.cwd == fs.cwd
    ensures var key := GetFullPath(fs.cwd, name);
            r.status == Done ==>
              && r.fs.files.Keys == fs.files.Keys + {key}
              && r.fs.files[key] ==
                   Entry(key, Directory, Some([Readable, Writable]), Some(fs.user), 0, [], Some(ParentFor(fs.cwd, name)))
              && (forall k :: k in fs.files ==> r.fs.files[k] == fs.files[k])
              && r.fs.store == fs.store && r.fs.user == fs.user
  {
    CreateFile(fs, name, Directory, fs.user, Some([Readable, Writable]))
  }

  // ---------------------------------------------------------------------
  // Writing and reading

  /** The engine's write is defined (does not panic) when the name resolves
      to an entry and, should the write loop run, the last page it fills
      exists. */
  predicate WriteDefined(fs: FileSystem, name: string, data: seq<byte>) {
    var key := GetFullPath(fs.cwd, name);
    && key in fs.files
    && (MayModify(fs.user, fs.files[key].owner) ==>
          data == [] || fs.files[key].size % PageSize == 0 || fs.files[key].pages != [])
  }

  /** Appends `data` past the logical end of the entry, if the acting user is
      the administrator or the owner. */
  function WriteFile(fs: FileSystem, name: string, data: seq<byte>): (r: Step)
    requires WriteDefined(fs, name, data)
    ensures var key := GetFullPath(fs.cwd, name);
            var e := fs.files[key];
            !MayModify(fs.user, e.owner) ==> r == Step(fs, Failed(PermissionDenied))
    ensures var key := GetFullPath(fs.cwd, name);
            var e := fs.files[key];
            MayModify(fs.user, e.owner) ==>
              && r.status == Done
              && r.fs.files.Keys == fs.files.Keys
              && (forall k :: k in fs.files && k != key ==> r.fs.files[k] == fs.files[k])
              && r.fs.files[key].size == e.size + |data|
              && e.pages <= r.fs.files[key].pages
              && r.fs.files[key] == e.(pages := r.fs.files[key].pages, size := r.fs.files[key].size)
              && (|e.pages| == PagesFor(e.size) ==> |r.fs.files[key].pages| == PagesFor(r.fs.files[key].size))
              && fs.store.nextOffset <= r.fs.store.nextOffset
              && r.fs.cwd == fs.cwd && r.fs.user == fs.user
  {
    var key := GetFullPath(fs.cwd, name);
    var e := fs.files[key];
    if !MayModify(fs.user, e.owner) then Step(fs, Failed(PermissionDenied))
    else
      var a := AppendLoop(fs.store, e.pages, e.size, data);
      Step(fs.(files := fs.files[key := e.(pages := a.pages, size := a.size)], store := a.store), Done)
  }

  /** The engine's read: every page of the entry in order, a full page each
      except the last, of which size % 1024 bytes are taken. */
  function ReadFile(fs: FileSystem, name: string): (r: Result<seq<byte>>)
    ensures var key := GetFullPath(fs.cwd, name);
            key !in fs.files <==> r == Err(NotFound)
    ensures var key := GetFullPath(fs.cwd, name);
            key in fs.files && fs.files[key].pages != [] ==>
              r.Ok? && |r.value| == (|fs.files[key].pages| - 1) * PageSize + fs.files[key].size % PageSize
    ensures var key := GetFullPath(fs.cwd, name);
            key in fs.files && fs.files[key].pages == [] ==> r == Ok([])
  {
    var key := GetFullPath(fs.cwd, name);
    if key !in fs.files then Err(NotFound)
    else
      var e := fs.files[key];
      Ok(ReadLoop(fs.store.container, e.pages, e.size % PageSize))
  }

  /** The pages of the entry `name` resolves to, if any, hold its size. */
  predicate IntendedReadDefined(fs: FileSystem, name: string) {
    var key := GetFullPath(fs.cwd, name);
    key in fs.files ==> fs.files[key].size <= |fs.files[key].pages| * PageSize
  }

  /** The intended read: exactly `size` bytes, the last page
      contributing a full page when the size is a multiple of 1024. */
  function ReadFileIntended(fs: FileSystem, name: string): (r: Result<seq<byte>>)
    requires IntendedReadDefined(fs, name)
    ensures var key := GetFullPath(fs.cwd, name);
            key !in fs.files <==> r == Err(NotFound)
    ensures var key := GetFullPath(fs.cwd, name);
            key in fs.files ==> r.Ok? && |r.value| == fs.files[key].size
  {
    var key := GetFullPath(fs.cwd, name);
    if key !in fs.files then Err(NotFound)
    else
      var e := fs.files[key];
      Ok(Content(fs.store.container, e.pages, e.size))
  }

  // ---------------------------------------------------------------------
  // Changing directory

  /** "." stays, ".." follows the current directory's parent pointer, any
      other name must resolve to a directory. */
  function Cd(fs: FileSystem, path: string): (r: Step)
    ensures r.fs.files == fs.files && r.fs.store == fs.store && r.fs.user == fs.user
    ensures r.status.Failed? ==> r.fs == fs
    ensures path == "." ==> r == Step(fs, Done)
    ensures path == ".." ==>
              if fs.cwd in fs.files && fs.files[fs.cwd].parent.Some?
              then r == Step(fs.(cwd := fs.files[fs.cwd].parent.value), Done)
              else r == Step(fs, Failed(NotFound))
    ensures var key := GetFullPath(fs.cwd, path);
            path != "." && path != ".." ==>
              && (key !in fs.files ==> r.status == Failed(NotFound))
              && (key in fs.files && fs.files[key].fileType == File ==> r.status == Failed(NotADirectory))
              && (key in fs.files && fs.files[key].fileType == Directory ==> r == Step(fs.(cwd := key), Done))
  {
    var key := GetFullPath(fs.cwd, path);
    if path == "." then Step(fs, Done)
    else if path == ".." then
      if fs.cwd in fs.files && fs.files[fs.cwd].parent.Some?
      then Step(fs.(cwd := fs.files[fs.cwd].parent.value), Done)
      else Step(fs, Failed(NotFound))
    else if key in fs.files then
      if fs.files[key].fileType == Directory then Step(fs.(cwd := key), Done)
      else Step(fs, Failed(NotADirectory))
    else Step(fs, Failed(NotFound))
  }

  // ---------------------------------------------------------------------
  // Removal

  /** Every File entry has an owner: the removal does not panic whoever
      calls it. */
  predicate FilesOwned(files: map<string, Entry>) {
    forall k :: k in files && files[k].fileType == File ==> files[k].owner.Some?
  }

  /** `order` enumerates (at least) every key of the table. */
  predicate Covers(order: seq<string>, files: map<string, Entry>) {
    forall k :: k in files ==> k in order
  }

  /** `a` is `b` with some elements left out and the rest kept in order. */
  predicate SubSeq(a: seq<string>, b: seq<string>)
    decreases |b|
  {
    if b == [] then a == []
    else SubSeq(a, b[1..]) || (a != [] && a[0] == b[0] && SubSeq(a[1..], b[1..]))
  }

  /** The prefix scan of the recursive removal: the keys of `files` that
      start with `prefix`, in the table's iteration order `order`. */
  function PrefixScan(order: seq<string>, files: map<string, Entry>, prefix: string): (r: seq<string>)
    ensures forall k :: k in r <==> k in order && k in files && prefix <= k
    ensures SubSeq(r, order)
    decreases |order|
  {
    if order == [] then []
    else
      var rest := PrefixScan(order[1..], files, prefix);
      if order[0] in files && prefix <= order[0] then
        assert ([order[0]] + rest)[1..] == rest;
        [order[0]] + rest
      else rest
  }

  /** Removes the entry the name resolves to, before anything else. A file
      then goes through the owner check and, when it passes, its pages join
      the tail of the free list; a directory then has every key under
      `path/` removed, one by one in the table's iteration order `order`,
      stopping at the first failure. */
  function Rm(fs: FileSystem, name: string, order: seq<string>): (r: Step)
    requires fs.user == Root || FilesOwned(fs.files)
    ensures var key := GetFullPath(fs.cwd, name);
            key !in fs.files ==> r == Step(fs, Failed(NotFound))
    ensures var key := GetFullPath(fs.cwd, name);
            key in fs.files ==> key !in r.fs.files
    ensures r.fs.files.Keys <= fs.files.Keys
    ensures forall k :: k in r.fs.files ==> r.fs.files[k] == fs.files[k]
    ensures r.fs.cwd == fs.cwd && r.fs.user == fs.user
    ensures r.fs.store.nextOffset == fs.store.nextOffset && r.fs.store.container == fs.store.container
    ensures fs.store.freeList <= r.fs.store.freeList
    ensures var key := GetFullPath(fs.cwd, name);
            key in fs.files && fs.files[key].fileType == File ==>
              && r.fs.files == fs.files - {key}
              && (r.status == Done <==> MayModify(fs.user, fs.files[key].owner))
              && (r.status == Done ==> r.fs.store.freeList == fs.store.freeList + fs.files[key].pages)
              && (r.status != Done ==> r.status == Failed(PermissionDenied) && r.fs.store == fs.store)
    decreases fs.files.Keys, 0, 0
  {
    var key := GetFullPath(fs.cwd, name);
    if key !in fs.files then Step(fs, Failed(NotFound))
    else
      var e := fs.files[key];
      var fs1 := fs.(files := fs.files - {key});
      if e.fileType == File then
        if !MayModify(fs.user, e.owner) then Step(fs1, Failed(PermissionDenied))
        else Step(fs1.(store := fs1.store.(freeList := fs1.store.freeList + e.pages)), Done)
      else
        RmEach(fs1, PrefixScan(order, fs1.files, key + "/"), order)
  }

  /** Removes each of `keys` in turn, stopping at the first failure. */
  function RmEach(fs: FileSystem, keys: seq<string>, order: seq<string>): (r: Step)
    requires fs.user == Root || FilesOwned(fs.files)
    ensures r.fs.files.Keys <= fs.files.Keys
    ensures forall k :: k in r.fs.files ==> r.fs.files[k] == fs.files[k]
    ensures r.fs.cwd == fs.cwd && r.fs.user == fs.user
    ensures r.fs.store.nextOffset == fs.store.nextOffset && r.fs.store.container == fs.store.container
    ensures fs.store.freeList <= r.fs.store.freeList
    ensures r.status == Done ==> forall k :: k in keys ==> GetFullPath(fs.cwd, k) !in r.fs.files
    decreases fs.files.Keys, 1, |keys|
  {
    if keys == [] then Step(fs, Done)
    else
      var s := Rm(fs, keys[0], order);
      if s.status.Failed? then s
      else RmEach(s.fs, keys[1..], order)
  }

  /** The removal as intended: as `Rm`, except that a key of the scan that an
      earlier key's removal already took away is passed over, where `Rm`
      fails the whole removal with NotFound. */
  function RmIntended(fs: FileSystem, name: string, order: seq<string>): (r: Step)
    requires fs.user == Root || FilesOwned(fs.files)
    ensures var key := GetFullPath(fs.cwd, name);
            key !in fs.files ==> r == Step(fs, Failed(NotFound))
    ensures var key := GetFullPath(fs.cwd, name);
            key in fs.files ==> key !in r.fs.files
    ensures r.fs.files.Keys <= fs.files.Keys
    ensures forall k :: k in r.fs.files ==> r.fs.files[k] == fs.files[k]
    ensures r.fs.cwd == fs.cwd && r.fs.user == fs.user
    decreases fs.files.Keys, 0, 0
  {
    var key := GetFullPath(fs.cwd, name);
    if key !in fs.files then Step(fs, Failed(NotFound))
    else
      var e := fs.files[key];
      var fs1 := fs.(files := fs.files - {key});
      if e.fileType == File then
        if !MayModify(fs.user, e.owner) then Step(fs1, Failed(PermissionDenied))
        else Step(fs1.(store := fs1.store.(freeList := fs1.store.freeList + e.pages)), Done)
      else
        RmEachIntended(fs1, PrefixScan(order, fs1.files, key + "/"), order)
  }

  /** Removes each of `keys` that is still present, stopping at the first
      failure. */
  function RmEachIntended(fs: FileSystem, keys: seq<string>, order: seq<string>): (r: Step)
    requires fs.user == Root || FilesOwned(fs.files)
    ensures r.fs.files.Keys <= fs.files.Keys
    ensures forall k :: k in r.fs.files ==> r.fs.files[k] == fs.files[k]
    ensures r.fs.cwd == fs.cwd && r.fs.user == fs.user
    ensures r.status == Done ==> forall k :: k in keys ==> GetFullPath(fs.cwd, k) !in r.fs.files
    decreases fs.files.Keys, 1, |keys|
  {
    if keys == [] then Step(fs, Done)
    else if GetFullPath(fs.cwd, keys[0]) !in fs.files then RmEachIntended(fs, keys[1..], order)
    else
      var s := RmIntended(fs, keys[0], order);
      if s.status.Failed? then s
      else RmEachIntended(s.fs, keys[1..], order)
  }

  // ---------------------------------------------------------------------
  // Copy and move

  /** The copy does not panic: a present source has an owner. */
  predicate CpDefined(fs: FileSystem, src: string) {
    var key := GetFullPath(fs.cwd, src);
    key in fs.files ==> fs.files[key].owner.Some?
  }

  /** Reads the source, creates the destination as a file with the source's
      owner and permissions, then writes the bytes read into it (as the
      acting user). */
  function Cp(fs: FileSystem, src: string, dest: string): (r: Step)
    requires CpDefined(fs, src)
    ensures var s := GetFullPath(fs.cwd, src);
            s !in fs.files ==> r == Step(fs, Failed(NotFound))
    ensures var s := GetFullPath(fs.cwd, src);
            var d := GetFullPath(fs.cwd, dest);
            s in fs.files && d in fs.files ==> r == Step(fs, Failed(AlreadyExists))
    ensures var s := GetFullPath(fs.cwd, src);
            var d := GetFullPath(fs.cwd, dest);
            s in fs.files && d !in fs.files ==>
              && r.fs.files.Keys == fs.files.Keys + {d}
              && (forall k :: k in fs.files ==> r.fs.files[k] == fs.files[k])
              && r.fs.files[d].fileType == File
              && r.fs.files[d].owner == fs.files[s].owner
              && r.fs.files[d].permission == fs.files[s].permission
              && r.fs.files[d].parent == Some(ParentFor(fs.cwd, dest))
              && (r.status == Done <==> MayModify(fs.user, fs.files[s].owner))
              && (r.status != Done ==> r.status == Failed(PermissionDenied) && r.fs.files[d].size == 0)
              && (r.status == Done ==> r.fs.files[d].size == |ReadFile(fs, src).value|)
              && r.fs.cwd == fs.cwd && r.fs.user == fs.user
              && fs.store.nextOffset <= r.fs.store.nextOffset
  {
    var s := GetFullPath(fs.cwd, src);
    if s !in fs.files then Step(fs, Failed(NotFound))
    else
      var e := fs.files[s];
      var data := ReadFile(fs, src).value;
      var c := CreateFile(fs, dest, File, e.owner.value, e.permission);
      if c.status.Failed? then c
      else WriteFile(c.fs, dest, data)
  }

  /** A copy followed, if it succeeded, by the removal of the source. */
  function Mv(fs: FileSystem, src: string, dest: string, order: seq<string>): (r: Step)
    requires CpDefined(fs, src)
    requires fs.user == Root || FilesOwned(fs.files)
    ensures Cp(fs, src, dest).status.Failed? ==> r == Cp(fs, src, dest)
    ensures var s := GetFullPath(fs.cwd, src);
            Cp(fs, src, dest).status == Done ==> s !in r.fs.files
    ensures r.fs.cwd == fs.cwd && r.fs.user == fs.user
  {
    var c := Cp(fs, src, dest);
    if c.status.Failed? then c
    else Rm(c.fs, src, order)
  }
}

=== FILE: engine_proofs.dfy ===
/** Properties of the engine: every operation keeps the invariant, writes
    round-trip through the read, removal frees and clears what it should and
    nothing else, and directory navigation follows the parent pointers that
    creation records. */
module EngineProofs {
  import opened Results
  import opened Paths
  import opened Pages
  import opened Engine

  // ---------------------------------------------------------------------
  // The invariant is kept

  /** Creating an entry keeps the invariant: the new key is absolute because
      the cursor is anchored, and an empty entry owns no page. */
  lemma CreateFileValid(fs: FileSystem, name: string, fileType: FileType, owner: string,
                        permission: Option<seq<FilePermission>>)
    requires Valid(fs)
    ensures Valid(CreateFile(fs, name, fileType, owner, permission).fs)
  {
    var r := CreateFile(fs, name, fileType, owner, permission).fs;
    var key := GetFullPath(fs.cwd, name);
    if key !in fs.files {
      forall k | k in r.files
        ensures EntryValid(r, k)
      {
        if k != key {
          assert EntryValid(fs, k);
        }
      }
    }
  }

  /** A page of another entry is never one the write loop hands out: it is
      neither free nor at or above the mark. */
  lemma {:induction false} OtherFitsAfterWrite(fs: FileSystem, key: string, k: string, data: seq<byte>)
    requires Valid(fs) && key in fs.files && k in fs.files && k != key
    ensures var e := fs.files[key];
            var a := AppendLoop(fs.store, e.pages, e.size, data);
            && Fits(a.store, fs.files[k].pages, fs.files[k].size)
            && Disjoint(fs.files[k].pages, a.pages)
            && Disjoint(a.pages, fs.files[k].pages)
  {
    var e := fs.files[key];
    var q := fs.files[k].pages;
    var a := AppendLoop(fs.store, e.pages, e.size, data);
    assert EntryValid(fs, key) && EntryValid(fs, k);
    AppendLoopFits(fs.store, e.pages, e.size, data);
    assert Disjoint(q, e.pages);
    forall x | x in q
      ensures x !in a.pages && x !in a.store.freeList && x < a.store.nextOffset
    {
      assert x !in fs.store.freeList && x < fs.store.nextOffset;
    }
  }

  /** Writing keeps the invariant. */
  lemma {:induction false} WriteFileValid(fs: FileSystem, name: string, data: seq<byte>)
    requires Valid(fs) && WriteDefined(fs, name, data)
    ensures Valid(WriteFile(fs, name, data).fs)
  {
    var key := GetFullPath(fs.cwd, name);
    var e := fs.files[key];
    if MayModify(fs.user, e.owner) {
      var a := AppendLoop(fs.store, e.pages, e.size, data);
      var r := WriteFile(fs, name, data).fs;
      assert r.store == a.store && r.files == fs.files[key := e.(pages := a.pages, size := a.size)];
      assert EntryValid(fs, key);
      AppendLoopFits(fs.store, e.pages, e.size, data);
      forall k | k in r.files
        ensures EntryValid(r, k)
      {
        if k != key {
          assert EntryValid(fs, k);
          OtherFitsAfterWrite(fs, key, k, data);
        }
      }
      forall k1, k2 | k1 in r.files && k2 in r.files && k1 != k2
        ensures Disjoint(r.files[k1].pages, r.files[k2].pages)
      {
        if k1 == key {
          OtherFitsAfterWrite(fs, key, k2, data);
        } else if k2 == key {
          OtherFitsAfterWrite(fs, key, k1, data);
        }
      }
    }
  }

  /** Dropping an entry from the table keeps the invariant. */
  lemma RemoveValid(fs: FileSystem, key: string)
    requires Valid(fs)
    ensures Valid(fs.(files := fs.files - {key}))
  {
    var r := fs.(files := fs.files - {key});
    forall k | k in r.files
      ensures EntryValid(r, k)
    {
      assert EntryValid(fs, k);
    }
  }

  lemma NoDupsConcat(ps: seq<nat>, qs: seq<nat>)
    requires NoDups(ps) && NoDups(qs) && Disjoint(ps, qs)
    ensures NoDups(ps + qs)
  {
    var r := ps + qs;
    forall i, j | 0 <= i < j < |r|
      ensures r[i] != r[j]
    {
      if i < |ps| && |ps| <= j {
        assert r[i] in ps && r[j] == qs[j - |ps|];
      }
    }
  }

  /** Dropping an entry and appending its pages to the free list keeps the
      invariant: the freed pages were in use by that entry alone. */
  lemma {:induction false} FreeValid(fs: FileSystem, key: string)
    requires Valid(fs) && key in fs.files
    ensures var e := fs.files[key];
            Valid(fs.(files := fs.files - {key}, store := fs.store.(freeList := fs.store.freeList + e.pages)))
  {
    var e := fs.files[key];
    var fl := fs.store.freeList + e.pages;
    var r := fs.(files := fs.files - {key}, store := fs.store.(freeList := fl));
    assert EntryValid(fs, key);
    NoDupsConcat(fs.store.freeList, e.pages);
    assert StoreValid(r.store);
    forall k | k in r.files
      ensures EntryValid(r, k)
    {
      assert EntryValid(fs, k);
      assert Disjoint(fs.files[k].pages, e.pages);
    }
  }

  /** Removal keeps the invariant, through every level of the recursion. */
  lemma {:induction false} RmValid(fs: FileSystem, name: string, order: seq<string>)
    requires Valid(fs) && (fs.user == Root || FilesOwned(fs.files))
    ensures Valid(Rm(fs, name, order).fs)
    decreases fs.files.Keys, 0, 0
  {
    var key := GetFullPath(fs.cwd, name);
    if key in fs.files {
      var e := fs.files[key];
      var fs1 := fs.(files := fs.files - {key});
      RemoveValid(fs, key);
      if e.fileType == File {
        if MayModify(fs.user, e.owner) {
          FreeValid(fs, key);
        }
      } else {
        RmEachValid(fs1, PrefixScan(order, fs1.files, key + "/"), order);
      }
    }
  }

  lemma {:induction false} RmEachValid(fs: FileSystem, keys: seq<string>, order: seq<string>)
    requires Valid(fs) && (fs.user == Root || FilesOwned(fs.files))
    ensures Valid(RmEach(fs, keys, order).fs)
    decreases fs.files.Keys, 1, |keys|
  {
    if keys != [] {
      var s := Rm(fs, keys[0], order);
      RmValid(fs, keys[0], order);
      if !s.status.Failed? {
        RmEachValid(s.fs, keys[1..], order);
      }
    }
  }

  /** Changing directory keeps the cursor anchored. */
  lemma CdValid(fs: FileSystem, path: string)
    requires Valid(fs)
    ensures Valid(Cd(fs, path).fs)
  {
    if path == ".." && fs.cwd in fs.files {
      assert EntryValid(fs, fs.cwd);
    }
  }

  /** Copying keeps the invariant. */
  lemma CpValid(fs: FileSystem, src: string, dest: string)
    requires Valid(fs)
    ensures CpDefined(fs, src) && Valid(Cp(fs, src, dest).fs)
  {
    var s := GetFullPath(fs.cwd, src);
    if s in fs.files {
      assert EntryValid(fs, s);
      var e := fs.files[s];
      CreateFileValid(fs, dest, File, e.owner.value, e.permission);
      var c := CreateFile(fs, dest, File, e.owner.value, e.permission);
      if !c.status.Failed? {
        WriteFileValid(c.fs, dest, ReadFile(fs, src).value);
      }
    }
  }

  /** Moving keeps the invariant. */
  lemma MvValid(fs: FileSystem, src: string, dest: string, order: seq<string>)
    requires Valid(fs) && (fs.user == Root || FilesOwned(fs.files))
    ensures Valid(Mv(fs, src, dest, order).fs)
  {
    CpValid(fs, src, dest);
    var c := Cp(fs, src, dest);
    if !c.status.Failed? {
      RmValid(c.fs, src, order);
    }
  }

  // ---------------------------------------------------------------------
  // Writing and reading back

  /** A write appends exactly the bytes written to the entry's content. */
  lemma {:induction false} WriteThenRead(fs: FileSystem, name: string, data: seq<byte>)
    requires Valid(fs) && WriteDefined(fs, name, data)
    requires MayModify(fs.user, fs.files[GetFullPath(fs.cwd, name)].owner)
    ensures var r := WriteFile(fs, name, data).fs;
            && Valid(r)
            && IntendedReadDefined(r, name)
            && ReadFileIntended(r, name) == Ok(ReadFileIntended(fs, name).value + data)
  {
    var key := GetFullPath(fs.cwd, name);
    var e := fs.files[key];
    assert EntryValid(fs, key);
    WriteFileValid(fs, name, data);
    AppendLoopContent(fs.store, e.pages, e.size, data);
  }

  /** The engine's read returns the entry's content, except that when the
      size is a positive multiple of 1024 the last page is left out. */
  lemma ReadAsWritten(fs: FileSystem, name: string)
    requires Valid(fs) && GetFullPath(fs.cwd, name) in fs.files
    ensures var e := fs.files[GetFullPath(fs.cwd, name)];
            var want := ReadFileIntended(fs, name).value;
            && ((e.size == 0 || e.size % PageSize != 0) ==> ReadFile(fs, name) == Ok(want))
            && ((e.size > 0 && e.size % PageSize == 0) ==> ReadFile(fs, name) == Ok(want[..e.size - PageSize]))
  {
    var e := fs.files[GetFullPath(fs.cwd, name)];
    assert EntryValid(fs, GetFullPath(fs.cwd, name));
    ReadLoopOfFile(fs.store.container, e.pages, e.size);
  }

  /** Writing into an empty entry and reading it back with the engine's read
      gives the bytes written, less the last 1024 when their number is a
      positive multiple of 1024. */
  lemma {:induction false} WriteThenReadAsWritten(fs: FileSystem, name: string, data: seq<byte>)
    requires Valid(fs) && GetFullPath(fs.cwd, name) in fs.files
    requires fs.files[GetFullPath(fs.cwd, name)].size == 0
    requires MayModify(fs.user, fs.files[GetFullPath(fs.cwd, name)].owner)
    ensures var r := WriteFile(fs, name, data).fs;
            && ((data == [] || |data| % PageSize != 0) ==> ReadFile(r, name) == Ok(data))
            && ((data != [] && |data| % PageSize == 0) ==> ReadFile(r, name) == Ok(data[..|data| - PageSize]))
  {
    var key := GetFullPath(fs.cwd, name);
    assert EntryValid(fs, key);
    FreshAppendReadLoop(fs.store, data);
  }

  /** The finding in one instance: in a fresh engine, a file into which
      exactly one page is written reads back empty, while its content is the
      page written. */
  lemma FullPageReadsBackEmpty(user: string, name: string, data: seq<byte>)
    requires IsSimpleName(name) && |data| == PageSize
    ensures var fs := Touch(New(user), name).fs;
            && WriteDefined(fs, name, data)
            && var r := WriteFile(fs, name, data).fs;
            && Valid(r)
            && ReadFile(r, name) == Ok([])
            && IntendedReadDefined(r, name)
            && ReadFileIntended(r, name) == Ok(data)
  {
    var fs0 := New(user);
    var fs := Touch(fs0, name).fs;
    var key := GetFullPath(fs0.cwd, name);
    assert key == "/" + name && key != "/";
    CreateFileValid(fs0, name, File, user, Some([Readable, Writable]));
    var r := WriteFile(fs, name, data).fs;
    WriteThenRead(fs, name, data);
    WriteThenReadAsWritten(fs, name, data);
    assert ReadFileIntended(fs, name) == Ok([]);
    assert [] + data == data;
    assert ReadFileIntended(r, name) == Ok(data);
  }

  /** A write changes what no other entry reads. */
  lemma {:induction false} WriteKeepsOtherReads(fs: FileSystem, name: string, data: seq<byte>, other: string)
    requires Valid(fs) && WriteDefined(fs, name, data)
    requires GetFullPath(fs.cwd, other) != GetFullPath(fs.cwd, name)
    ensures ReadFile(WriteFile(fs, name, data).fs, other) == ReadFile(fs, other)
  {
    var key := GetFullPath(fs.cwd, name);
    var k := GetFullPath(fs.cwd, other);
    var e := fs.files[key];
    if MayModify(fs.user, e.owner) && k in fs.files {
      var ap := AppendLoop(fs.store, e.pages, e.size, data);
      var q := fs.files[k];
      assert EntryValid(fs, k);
      OtherFitsAfterWrite(fs, key, k, data);
      AppendLoopFrame(fs.store, e.pages, e.size, data);
      forall a: nat | Base(a) in q.pages
        ensures Get(ap.store.container, a) == Get(fs.store.container, a)
      {
        assert Base(a) !in ap.pages;
      }
      ReadLoopFrame(ap.store.container, fs.store.container, q.pages, q.size % PageSize);
    }
  }

  /** A valid state has every key absolute and every entry owned. */
  lemma ValidKeysOwned(fs: FileSystem)
    requires Valid(fs)
    ensures KeysAbsolute(fs.files) && FilesOwned(fs.files)
  {
    forall k | k in fs.files
      ensures IsAbsolute(k) && fs.files[k].owner.Some?
    {
      assert EntryValid(fs, k);
    }
  }

  /** The pages a file's removal frees are the next ones handed out, after
      the pages already free and before the mark advances. */
  lemma RmThenAllocateReuses(fs: FileSystem, name: string, order: seq<string>)
    requires fs.user == Root || FilesOwned(fs.files)
    requires GetFullPath(fs.cwd, name) in fs.files
    requires fs.files[GetFullPath(fs.cwd, name)].fileType == File
    requires MayModify(fs.user, fs.files[GetFullPath(fs.cwd, name)].owner)
    ensures var e := fs.files[GetFullPath(fs.cwd, name)];
            var r := Rm(fs, name, order).fs;
            var a := AllocateMany(r.store, |fs.store.freeList| + |e.pages|);
            && a.1 == fs.store.freeList + e.pages
            && a.0.nextOffset == fs.store.nextOffset
            && a.0.freeList == []
  {
    FreedPagesReusedFirst(Rm(fs, name, order).fs.store);
  }

  // ---------------------------------------------------------------------
  // Copy and move

  /** A copy by the source's owner or the administrator holds as content the
      bytes the engine's read returns for the source, which it leaves as it
      was; those bytes also read back from the copy unless their number is a
      positive multiple of 1024. */
  lemma {:induction false} CpCopiesBytes(fs: FileSystem, src: string, dest: string)
    requires Valid(fs)
    requires GetFullPath(fs.cwd, src) in fs.files && GetFullPath(fs.cwd, dest) !in fs.files
    requires MayModify(fs.user, fs.files[GetFullPath(fs.cwd, src)].owner)
    ensures CpDefined(fs, src)
    ensures var data := ReadFile(fs, src).value;
            var r := Cp(fs, src, dest);
            && r.status == Done
            && Valid(r.fs)
            && IntendedReadDefined(r.fs, dest)
            && ReadFileIntended(r.fs, dest) == Ok(data)
            && ReadFile(r.fs, src) == Ok(data)
            && ((data == [] || |data| % PageSize != 0) ==> ReadFile(r.fs, dest) == Ok(data))
  {
    var s := GetFullPath(fs.cwd, src);
    var e := fs.files[s];
    var data := ReadFile(fs, src).value;
    var c := CreateFile(fs, dest, File, e.owner.value, e.permission);
    assert Valid(c.fs) by {
      CreateFileValid(fs, dest, File, e.owner.value, e.permission);
    }
    assert EntryValid(fs, s);
    var r := WriteFile(c.fs, dest, data);
    assert Cp(fs, src, dest) == r;
    assert Valid(r.fs) && IntendedReadDefined(r.fs, dest) && ReadFileIntended(r.fs, dest) == Ok(data) by {
      WriteThenRead(c.fs, dest, data);
      assert ReadFileIntended(c.fs, dest) == Ok([]);
      assert [] + data == data;
    }
    assert (data == [] || |data| % PageSize != 0) ==> ReadFile(r.fs, dest) == Ok(data) by {
      WriteThenReadAsWritten(c.fs, dest, data);
    }
    assert ReadFile(r.fs, src) == Ok(data) by {
      assert ReadFile(c.fs, src) == ReadFile(fs, src);
      WriteKeepsOtherReads(c.fs, dest, data, src);
    }
  }

  /** A move whose copy succeeded keeps the copy, whatever becomes of the
      source's removal, unless the destination lies under the source. */
  lemma MvKeepsDestination(fs: FileSystem, src: string, dest: string, order: seq<string>)
    requires Valid(fs)
    requires Cp(fs, src, dest).status == Done
    requires !(GetFullPath(fs.cwd, src) + "/" <= GetFullPath(fs.cwd, dest))
    ensures var d := GetFullPath(fs.cwd, dest);
            var c := Cp(fs, src, dest);
            var r := Mv(fs, src, dest, order);
            d in r.fs.files && r.fs.files[d] == c.fs.files[d]
  {
    var c := Cp(fs, src, dest);
    CpValid(fs, src, dest);
    ValidKeysOwned(c.fs);
    RmKeepsOutside(c.fs, src, order);
  }

  /** Moving a file succeeds exactly when its copy does; the source then
      leaves the table and its pages join the tail of the free list. */
  lemma MvFile(fs: FileSystem, src: string, dest: string, order: seq<string>)
    requires Valid(fs)
    requires var s := GetFullPath(fs.cwd, src); s in fs.files && fs.files[s].fileType == File
    ensures var s := GetFullPath(fs.cwd, src);
            var c := Cp(fs, src, dest);
            var r := Mv(fs, src, dest, order);
            && (r.status == Done <==> c.status == Done)
            && (c.status == Done ==>
                  && r.fs.files == c.fs.files - {s}
                  && r.fs.store.freeList == c.fs.store.freeList + fs.files[s].pages)
  {
    var s := GetFullPath(fs.cwd, src);
    var c := Cp(fs, src, dest);
    CpValid(fs, src, dest);
    ValidKeysOwned(c.fs);
    if c.status == Done {
      assert c.fs.files[s] == fs.files[s];
      assert MayModify(fs.user, fs.files[s].owner);
    }
  }

  // ---------------------------------------------------------------------
  // Creating and navigating

  /** Creating an entry under a fresh name without separators adds exactly
      that entry to the listing of the directory it was created from. */
  lemma CreatedIsListed(fs: FileSystem, n: string)
    requires '/' !in n && !IsFileExists(fs, n)
    ensures Ls(Touch(fs, n).fs) == Ls(fs) + {GetFullPath(fs.cwd, n)}
    ensures Ls(Mkdir(fs, n).fs) == Ls(fs) + {GetFullPath(fs.cwd, n)}
  {
    var key := GetFullPath(fs.cwd, n);
    var t := Touch(fs, n).fs;
    var m := Mkdir(fs, n).fs;
    assert t.files[key].parent == Some(fs.cwd) && m.files[key].parent == Some(fs.cwd);
    assert forall k :: k in Ls(t) <==> k in Ls(fs) || k == key;
    assert forall k :: k in Ls(m) <==> k in Ls(fs) || k == key;
  }

  /** A directory made under a simple name is entered by that name and left
      again by "..", back where it was made. */
  lemma MkdirCdRoundTrip(fs: FileSystem, n: string)
    requires IsSimpleName(n) && n != "." && n != ".." && !IsFileExists(fs, n)
    ensures var m := Mkdir(fs, n).fs;
            var inside := Cd(m, n);
            && inside == Step(m.(cwd := GetFullPath(fs.cwd, n)), Done)
            && Cd(inside.fs, "..") == Step(m, Done)
  {
  }

  /** Outside the trailing-separator case, the parent recorded at creation
      is the parent of the key the entry is stored under. */
  lemma CreateParentRule(cwd: string, name: string)
    requires IsNormalDir(cwd) && name != "" && name[|name| - 1] != '/'
    ensures ParentFor(cwd, name) == ParentForIntended(cwd, name)
  {
    if !IsAbsolute(name) {
      if '/' !in name {
        ResolveThenParent(cwd, name);
      } else if cwd == "/" {
        ParentAfterPrefix("/", name);
      } else {
        ParentAfterPrefix(cwd + "/", name);
      }
    }
  }

  /** The finding in one instance: a directory made as `n/` inside a
      directory other than the root records `cwd + "/"` as its parent, a
      path no listing of `cwd` matches, where the parent of its key is
      `cwd` itself. */
  lemma TrailingSlashParent(cwd: string, n: string)
    requires IsNormalDir(cwd) && cwd != "/" && IsSimpleName(n)
    ensures ParentFor(cwd, n + "/") == cwd + "/"
    ensures ParentFor(cwd, n + "/") != cwd
    ensures ParentForIntended(cwd, n + "/") == cwd
  {
    assert (n + "/")[|n|] == '/';
    ParentIgnoresTrailingSlash(n);
    ParentOfSimpleName(n);
    TrailingSlashIntended(cwd, n);
  }

  /** The corrected rule gives a name written with a trailing separator the
      same parent as the bare name: the cursor. */
  lemma TrailingSlashIntended(cwd: string, n: string)
    requires IsNormalDir(cwd) && IsSimpleName(n)
    ensures ParentForIntended(cwd, n + "/") == cwd
    ensures ParentForIntended(cwd, n + "/") == ParentForIntended(cwd, n)
  {
    assert n[0] in n;
    assert GetFullPath(cwd, n + "/") == GetFullPath(cwd, n) + "/";
    ParentIgnoresTrailingSlash(GetFullPath(cwd, n));
    ResolveThenParent(cwd, n);
  }

  // ---------------------------------------------------------------------
  // Removal

  /** Every key of the table is an absolute path, so resolving a key read
      from the table gives the key itself. */
  predicate KeysAbsolute(files: map<string, Entry>) {
    forall k :: k in files ==> IsAbsolute(k)
  }

  lemma PrefixTrans(a: string, b: string, c: string)
    requires a <= b && b + "/" <= c
    ensures a <= c
  {
    assert b <= b + "/";
  }

  /** Removal takes away nothing but the entry named and the keys under it. */
  lemma {:induction false} RmKeepsOutside(fs: FileSystem, name: string, order: seq<string>)
    requires KeysAbsolute(fs.files) && (fs.user == Root || FilesOwned(fs.files))
    ensures var key := GetFullPath(fs.cwd, name);
            forall k :: k in fs.files && k != key && !(key + "/" <= k) ==> k in Rm(fs, name, order).fs.files
    decreases fs.files.Keys, 0, 0
  {
    var key := GetFullPath(fs.cwd, name);
    if key in fs.files && fs.files[key].fileType == Directory {
      var fs1 := fs.(files := fs.files - {key});
      RmEachKeepsOutside(fs1, PrefixScan(order, fs1.files, key + "/"), order, key + "/");
    }
  }

  lemma {:induction false} RmEachKeepsOutside(fs: FileSystem, keys: seq<string>, order: seq<string>, prefix: string)
    requires KeysAbsolute(fs.files) && (fs.user == Root || FilesOwned(fs.files))
    requires forall k :: k in keys ==> IsAbsolute(k) && prefix <= k
    ensures forall k :: k in fs.files && !(prefix <= k) ==> k in RmEach(fs, keys, order).fs.files
    decreases fs.files.Keys, 1, |keys|
  {
    if keys != [] {
      var s := Rm(fs, keys[0], order);
      assert keys[0] in keys;
      RmKeepsOutside(fs, keys[0], order);
      forall k | k in fs.files && !(prefix <= k)
        ensures k in s.fs.files
      {
        if keys[0] + "/" <= k {
          PrefixTrans(prefix, keys[0], k);
        }
      }
      if !s.status.Failed? {
        assert forall k :: k in keys[1..] ==> k in keys;
        RmEachKeepsOutside(s.fs, keys[1..], order, prefix);
      }
    }
  }

  /** A directory removal that succeeds leaves exactly the keys outside the
      directory's subtree, when `order` enumerates the whole table. */
  lemma {:induction false} RmDirectoryExact(fs: FileSystem, name: string, order: seq<string>)
    requires Valid(fs) && (fs.user == Root || FilesOwned(fs.files)) && Covers(order, fs.files)
    requires GetFullPath(fs.cwd, name) in fs.files
    requires fs.files[GetFullPath(fs.cwd, name)].fileType == Directory
    requires Rm(fs, name, order).status == Done
    ensures var key := GetFullPath(fs.cwd, name);
            Rm(fs, name, order).fs.files.Keys == set k | k in fs.files && k != key && !(key + "/" <= k)
  {
    var key := GetFullPath(fs.cwd, name);
    var fs1 := fs.(files := fs.files - {key});
    var keys := PrefixScan(order, fs1.files, key + "/");
    var r := Rm(fs, name, order);
    assert r == RmEach(fs1, keys, order);
    assert KeysAbsolute(fs.files) by {
      forall k | k in fs.files
        ensures IsAbsolute(k)
      {
        assert EntryValid(fs, k);
      }
    }
    RmKeepsOutside(fs, name, order);
    forall k | k in r.fs.files
      ensures !(key + "/" <= k)
    {
      if key + "/" <= k {
        assert false;
      }
    }
  }

  /** The owner check applies to files only: any acting user removes a
      directory with nothing under it, whoever owns it. */
  lemma RmEmptyDirectoryAnyUser(fs: FileSystem, name: string, order: seq<string>)
    requires fs.user == Root || FilesOwned(fs.files)
    requires GetFullPath(fs.cwd, name) in fs.files
    requires fs.files[GetFullPath(fs.cwd, name)].fileType == Directory
    requires forall k :: k in fs.files ==> !(GetFullPath(fs.cwd, name) + "/" <= k)
    ensures Rm(fs, name, order) == Step(fs.(files := fs.files - {GetFullPath(fs.cwd, name)}), Done)
  {
    var key := GetFullPath(fs.cwd, name);
    var keys := PrefixScan(order, fs.files - {key}, key + "/");
    EmptyOrHeadIn(keys);
  }

  /** Stated as a lemma so that the index is checked where it is in range,
      not inside the caller's impossible case. */
  lemma EmptyOrHeadIn(ks: seq<string>)
    ensures ks == [] || ks[0] in ks
  {
  }

  /** A scan of a table order that lists each key once lists each key once. */
  lemma {:induction false} ScanDistinct(order: seq<string>, files: map<string, Entry>, prefix: string)
    requires NoDups(order)
    ensures NoDups(PrefixScan(order, files, prefix))
    decreases |order|
  {
    if order != [] {
      var rest := PrefixScan(order[1..], files, prefix);
      ScanDistinct(order[1..], files, prefix);
    }
  }

  /** Removing, one by one, distinct files the acting user may remove never
      fails. */
  lemma {:induction false} RmEachFiles(fs: FileSystem, keys: seq<string>, order: seq<string>)
    requires fs.user == Root || FilesOwned(fs.files)
    requires NoDups(keys)
    requires forall k :: k in keys ==>
               && IsAbsolute(k) && k in fs.files && fs.files[k].fileType == File
               && MayModify(fs.user, fs.files[k].owner)
    ensures RmEach(fs, keys, order).status == Done
    decreases |keys|
  {
    if keys != [] {
      var s := Rm(fs, keys[0], order);
      assert keys[0] in keys;
      forall k | k in keys[1..]
        ensures IsAbsolute(k) && k in s.fs.files && s.fs.files[k] == fs.files[k]
      {
        var i :| 0 <= i < |keys[1..]| && keys[1..][i] == k;
        assert keys[i + 1] == k && k in keys;
      }
      RmEachFiles(s.fs, keys[1..], order);
    }
  }

  /** A directory holding only files the acting user may remove is removed
      without failure, when the table order lists each key once. */
  lemma {:induction false} RmFlatDirectory(fs: FileSystem, name: string, order: seq<string>)
    requires Valid(fs) && NoDups(order)
    requires GetFullPath(fs.cwd, name) in fs.files
    requires fs.files[GetFullPath(fs.cwd, name)].fileType == Directory
    requires forall k :: k in fs.files && GetFullPath(fs.cwd, name) + "/" <= k ==>
               fs.files[k].fileType == File && MayModify(fs.user, fs.files[k].owner)
    ensures Rm(fs, name, order).status == Done
  {
    var key := GetFullPath(fs.cwd, name);
    var fs1 := fs.(files := fs.files - {key});
    var keys := PrefixScan(order, fs1.files, key + "/");
    ValidKeysOwned(fs);
    ScanDistinct(order, fs1.files, key + "/");
    RmEachFiles(fs1, keys, order);
  }

  /** For the administrator the intended removal succeeds whenever the name
      resolves: no permission check can fail and no key is looked up twice. */
  lemma {:induction false} RmIntendedByRoot(fs: FileSystem, name: string, order: seq<string>)
    requires fs.user == Root
    ensures RmIntended(fs, name, order).status ==
              if GetFullPath(fs.cwd, name) in fs.files then Done else Failed(NotFound)
    decreases fs.files.Keys, 0, 0
  {
    var key := GetFullPath(fs.cwd, name);
    if key in fs.files && fs.files[key].fileType == Directory {
      var fs1 := fs.(files := fs.files - {key});
      RmEachIntendedByRoot(fs1, PrefixScan(order, fs1.files, key + "/"), order);
    }
  }

  lemma {:induction false} RmEachIntendedByRoot(fs: FileSystem, keys: seq<string>, order: seq<string>)
    requires fs.user == Root
    ensures RmEachIntended(fs, keys, order).status == Done
    decreases fs.files.Keys, 1, |keys|
  {
    if keys != [] {
      if GetFullPath(fs.cwd, keys[0]) !in fs.files {
        RmEachIntendedByRoot(fs, keys[1..], order);
      } else {
        var s := RmIntended(fs, keys[0], order);
        RmIntendedByRoot(fs, keys[0], order);
        RmEachIntendedByRoot(s.fs, keys[1..], order);
      }
    }
  }

  /** The intended removal of a directory by the administrator succeeds and
      leaves nothing of the directory's subtree, when `order` enumerates the
      whole table. */
  lemma {:induction false} RmIntendedClearsSubtree(fs: FileSystem, name: string, order: seq<string>)
    requires Valid(fs) && fs.user == Root && Covers(order, fs.files)
    requires GetFullPath(fs.cwd, name) in fs.files
    requires fs.files[GetFullPath(fs.cwd, name)].fileType == Directory
    ensures var key := GetFullPath(fs.cwd, name);
            var r := RmIntended(fs, name, order);
            && r.status == Done
            && key !in r.fs.files
            && forall k :: k in r.fs.files ==> !(key + "/" <= k)
  {
    var key := GetFullPath(fs.cwd, name);
    var r := RmIntended(fs, name, order);
    RmIntendedByRoot(fs, name, order);
    var fs1 := fs.(files := fs.files - {key});
    var keys := PrefixScan(order, fs1.files, key + "/");
    assert r == RmEachIntended(fs1, keys, order);
    forall k | k in r.fs.files
      ensures !(key + "/" <= k)
    {
      assert EntryValid(fs, k);
      if key + "/" <= k {
        assert false;
      }
    }
  }

  /** A directory owned by the administrator, as `mkdir` records it. */
  function AdminDir(name: string, parent: Option<string>): Entry {
    Entry(name, Directory, Some([Readable, Writable]), Some(Root), 0, [], parent)
  }

  /** One unfolding of the removal of a directory, as used by the instance
      below. */
  lemma RmDirectoryUnfold(fs: FileSystem, key: string, order: seq<string>)
    requires (fs.user == Root || FilesOwned(fs.files)) && IsAbsolute(key)
    requires key in fs.files && fs.files[key].fileType == Directory
    ensures var fs1 := fs.(files := fs.files - {key});
            var keys := PrefixScan(order, fs1.files, key + "/");
            && Rm(fs, key, order) == RmEach(fs1, keys, order)
            && RmIntended(fs, key, order) == RmEachIntended(fs1, keys, order)
  {
  }

  /** A file's removal by the administrator, as used by the instance below. */
  lemma RmFileUnfold(fs: FileSystem, key: string, order: seq<string>)
    requires fs.user == Root && IsAbsolute(key)
    requires key in fs.files && fs.files[key].fileType == File
    ensures var e := fs.files[key];
            var r := fs.(files := fs.files - {key}, store := fs.store.(freeList := fs.store.freeList + e.pages));
            && Rm(fs, key, order) == Step(r, Done)
            && RmIntended(fs, key, order) == Step(r, Done)
  {
  }

  /** One step of the removal loop, as used by the instance below. */
  lemma RmEachUnfold(fs: FileSystem, keys: seq<string>, order: seq<string>)
    requires (fs.user == Root || FilesOwned(fs.files)) && keys != []
    ensures var s := Rm(fs, keys[0], order);
            RmEach(fs, keys, order) == if s.status.Failed? then s else RmEach(s.fs, keys[1..], order)
    ensures var s := RmIntended(fs, keys[0], order);
            RmEachIntended(fs, keys, order) ==
              if GetFullPath(fs.cwd, keys[0]) !in fs.files then RmEachIntended(fs, keys[1..], order)
              else if s.status.Failed? then s
              else RmEachIntended(s.fs, keys[1..], order)
  {
  }

  /** The removal loop over a subdirectory followed by a file under it: the
      subdirectory's own removal already takes the file, so the loop's
      removal of the file fails with NotFound, where the intended loop passes
      over it. */
  lemma RmEachSubdirectoryFirst(fs: FileSystem, sub: string, leaf: string, order: seq<string>)
    requires fs.user == Root && IsAbsolute(sub) && IsAbsolute(leaf) && sub != leaf
    requires sub in fs.files && fs.files[sub].fileType == Directory
    requires leaf in fs.files && fs.files[leaf].fileType == File
    requires PrefixScan(order, fs.files - {sub}, sub + "/") == [leaf]
    ensures var e := fs.files[leaf];
            var gone := fs.(files := fs.files - {sub, leaf},
                            store := fs.store.(freeList := fs.store.freeList + e.pages));
            && RmEach(fs, [sub, leaf], order) == Step(gone, Failed(NotFound))
            && RmEachIntended(fs, [sub, leaf], order) == Step(gone, Done)
  {
    var e := fs.files[leaf];
    var fs1 := fs.(files := fs.files - {sub});
    var gone := fs.(files := fs.files - {sub, leaf},
                    store := fs.store.(freeList := fs.store.freeList + e.pages));
    RmDirectoryUnfold(fs, sub, order);
    RmFileUnfold(fs1, leaf, order);
    assert fs1.files - {leaf} == fs.files - {sub, leaf};
    RmEachUnfold(fs1, [leaf], order);
    assert [leaf][1..] == [];
    RmEachUnfold(fs, [sub, leaf], order);
    assert [sub, leaf][1..] == [leaf];
    RmEachUnfold(gone, [leaf], order);
  }

  /** The state of the instance below: the administrator at the root, the
      directories /a and /a/b and the empty file /a/b/c. */
  function NestedTree(): FileSystem {
    var c := Entry("/a/b/c", File, Some([Readable, Writable]), Some(Root), 0, [], Some("/a/b"));
    FileSystem(map["/" := AdminDir("/", None), "/a" := AdminDir("/a", Some("/")),
                   "/a/b" := AdminDir("/a/b", Some("/a")), "/a/b/c" := c],
               InitStore, "/", Root)
  }

  /** The finding in one instance: the administrator removes /a from
      `NestedTree()`, where the table lists /a/b before /a/b/c. Everything
      under /a goes, yet the removal fails with NotFound; the intended removal
      succeeds on the same state. */
  lemma RmNestedDirectoryFails(fs: FileSystem, order: seq<string>)
    requires fs == NestedTree() && order == ["/", "/a", "/a/b", "/a/b/c"]
    ensures Rm(fs, "/a", order) == Step(fs.(files := map["/" := AdminDir("/", None)]), Failed(NotFound))
    ensures RmIntended(fs, "/a", order) == Step(fs.(files := map["/" := AdminDir("/", None)]), Done)
  {
    var fs1 := fs.(files := fs.files - {"/a"});
    assert fs1.files - {"/a/b", "/a/b/c"} == map["/" := AdminDir("/", None)];
    assert fs1.store.freeList + fs1.files["/a/b/c"].pages == [];
    assert "/a" + "/" == "/a/" && "/a/b" + "/" == "/a/b/" by {
      assert ("/a" + "/")[2] == '/';
      assert ("/a/b" + "/")[4] == '/';
    }
    NestedScans(fs, order);
    RmDirectoryUnfold(fs, "/a", order);
    RmEachSubdirectoryFirst(fs1, "/a/b", "/a/b/c", order);
  }

  /** The two prefix scans of the instance above. */
  lemma NestedScans(fs: FileSystem, order: seq<string>)
    requires fs == NestedTree() && order == ["/", "/a", "/a/b", "/a/b/c"]
    ensures PrefixScan(order, fs.files - {"/a"}, "/a/") == ["/a/b", "/a/b/c"]
    ensures PrefixScan(order, fs.files - {"/a"} - {"/a/b"}, "/a/b/") == ["/a/b/c"]
  {
    var f1 := fs.files - {"/a"};
    var f2 := f1 - {"/a/b"};
    assert f1.Keys == {"/", "/a/b", "/a/b/c"};
    assert f2.Keys == {"/", "/a/b/c"};
    var o1, o2, o3 := order[1..], order[2..], order[3..];
    assert o1 == ["/a", "/a/b", "/a/b/c"] && o2 == ["/a/b", "/a/b/c"] && o3 == ["/a/b/c"];
    assert o1[1..] == o2 && o2[1..] == o3 && o3[1..] == [];
    assert "/a/" <= "/a/b" && "/a/" <= "/a/b/c" && "/a/b/" <= "/a/b/c";
    assert !("/a/b/" <= "/a/b") && !("/a/b/" <= "/") && !("/a/" <= "/");
    assert PrefixScan(o3, f1, "/a/") == ["/a/b/c"];
    assert PrefixScan(o2, f1, "/a/") == ["/a/b", "/a/b/c"];
    assert PrefixScan(o1, f1, "/a/") == ["/a/b", "/a/b/c"];
    assert PrefixScan(o3, f2, "/a/b/") == ["/a/b/c"];
    assert PrefixScan(o2, f2, "/a/b/") == ["/a/b/c"];
    assert PrefixScan(o1, f2, "/a/b/") == ["/a/b/c"];
  }

  // ---------------------------------------------------------------------
  // A session

  /** The first step of the session below: `/d` made from the root and
      entered by its relative name. */
  lemma SessionEnter(user: string, d: string)
    requires IsSimpleName(d) && d != "." && d != ".."
    ensures var s2 := Cd(Mkdir(New(user), "/" + d).fs, d);
            && s2.status == Done
            && Valid(s2.fs) && s2.fs.cwd == "/" + d && s2.fs.user == user
            && s2.fs.files.Keys == {"/", "/" + d}
            && s2.fs.files["/" + d].fileType == Directory
            && s2.fs.files["/" + d].parent == Some("/")
  {
    var dir := "/" + d;
    var s1 := Mkdir(New(user), dir).fs;
    assert && Valid(s1) && s1.cwd == "/" && s1.user == user
           && s1.files.Keys == {"/", dir}
           && s1.files[dir].fileType == Directory
           && s1.files[dir].parent == Some("/") by {
      assert "" + "/" + d == dir;
      ParentOfJoin("", d);
      CreateFileValid(New(user), dir, Directory, user, Some([Readable, Writable]));
    }
    assert GetFullPath(s1.cwd, d) == dir by {
      assert !IsAbsolute(d) by {
        assert d[0] in d;
      }
    }
    CdValid(s1, d);
  }

  /** The state the session below reaches once the file `f` exists, empty
      and the caller's, in the directory `/d` made at the root, which is the
      cursor. */
  ghost predicate SessionReady(fs: FileSystem, d: string, f: string) {
    && Valid(fs) && fs.cwd == "/" + d
    && GetFullPath(fs.cwd, f) == "/" + d + "/" + f
    && fs.files.Keys == {"/", "/" + d, "/" + d + "/" + f}
    && fs.files["/" + d].fileType == Directory && fs.files["/" + d].parent == Some("/")
    && fs.files["/" + d + "/" + f].fileType == File
    && fs.files["/" + d + "/" + f].owner == Some(fs.user)
    && fs.files["/" + d + "/" + f].size == 0
  }

  /** The second step of the session below: the file `f` created inside
      `/d`. */
  lemma SessionTouch(user: string, d: string, f: string)
    requires IsSimpleName(d) && IsSimpleName(f) && d != "." && d != ".."
    ensures var s3 := Touch(Cd(Mkdir(New(user), "/" + d).fs, d).fs, f);
            s3.status == Done && s3.fs.user == user && SessionReady(s3.fs, d, f)
  {
    var dir := "/" + d;
    var file := dir + "/" + f;
    SessionEnter(user, d);
    var s2 := Cd(Mkdir(New(user), dir).fs, d).fs;
    assert !IsAbsolute(f) by {
      assert f[0] in f;
    }
    assert |file| > |dir| > 1;
    CreateFileValid(s2, f, File, user, Some([Readable, Writable]));
  }

  /** The middle step of the session below: a short write into a new file
      reads back whole, and changes neither the cursor nor the key set. */
  lemma SessionWrite(fs: FileSystem, name: string, data: seq<byte>)
    requires Valid(fs) && GetFullPath(fs.cwd, name) in fs.files
    requires fs.files[GetFullPath(fs.cwd, name)].size == 0
    requires fs.files[GetFullPath(fs.cwd, name)].owner == Some(fs.user)
    requires 0 < |data| < PageSize
    ensures var r := WriteFile(fs, name, data);
            && r.status == Done && Valid(r.fs) && ReadFile(r.fs, name) == Ok(data)
            && r.fs.cwd == fs.cwd && r.fs.user == fs.user && r.fs.files.Keys == fs.files.Keys
            && forall k :: k in fs.files && k != GetFullPath(fs.cwd, name) ==> r.fs.files[k] == fs.files[k]
  {
    WriteFileValid(fs, name, data);
    WriteThenReadAsWritten(fs, name, data);
  }

  /** Going up from a directory made at the root lands on the root. */
  lemma SessionLeave(fs: FileSystem, dir: string)
    requires fs.cwd == dir && dir in fs.files && fs.files[dir].parent == Some("/")
    ensures Cd(fs, "..") == Step(fs.(cwd := "/"), Done)
  {
  }

  /** The last step of the session below: from the root, removing a
      directory that holds one file of the caller's leaves only the root. */
  lemma SessionRemove(fs: FileSystem, d: string, f: string, order: seq<string>)
    requires IsSimpleName(d) && IsSimpleName(f)
    requires Valid(fs) && fs.cwd == "/"
    requires fs.files.Keys == {"/", "/" + d, "/" + d + "/" + f}
    requires fs.files["/" + d].fileType == Directory
    requires fs.files["/" + d + "/" + f].fileType == File
    requires fs.files["/" + d + "/" + f].owner == Some(fs.user)
    requires NoDups(order) && "/" in order && "/" + d in order && "/" + d + "/" + f in order
    ensures var r := Rm(fs, d, order);
            r.status == Done && r.fs.files.Keys == {"/"} && r.fs.cwd == "/"
  {
    var dir := "/" + d;
    var file := dir + "/" + f;
    assert GetFullPath(fs.cwd, d) == dir;
    assert dir + "/" <= file;
    assert !(dir + "/" <= "/") && !(dir + "/" <= dir);
    RmFlatDirectory(fs, d, order);
    ValidKeysOwned(fs);
    RmDirectoryExact(fs, d, order);
  }

  /** The session below from the file's creation on: write, read back, go
      up, remove the directory. */
  lemma SessionTail(fs: FileSystem, d: string, f: string, data: seq<byte>, order: seq<string>)
    requires IsSimpleName(d) && IsSimpleName(f)
    requires 0 < |data| < PageSize
    requires NoDups(order) && "/" in order && "/" + d in order && "/" + d + "/" + f in order
    requires SessionReady(fs, d, f)
    ensures WriteDefined(fs, f, data)
    ensures var s4 := WriteFile(fs, f, data).fs;
            && ReadFile(s4, f) == Ok(data)
            && FilesOwned(s4.files)
            && var s6 := Rm(Cd(s4, "..").fs, d, order);
            && s6.status == Done && s6.fs.files.Keys == {"/"} && s6.fs.cwd == "/"
  {
    var dir := "/" + d;
    SessionWrite(fs, f, data);
    var s4 := WriteFile(fs, f, data).fs;
    assert s4.files[dir] == fs.files[dir];
    ValidKeysOwned(s4);
    SessionLeave(s4, dir);
    SessionRemove(Cd(s4, "..").fs, d, f, order);
  }

  /** A session on a fresh engine: make the directory `/d`, enter it by its
      relative name, create the file `f` there, write `data` into it and read
      it back, go back up and remove `d`. The read returns what was written,
      the cursor is back at the root, and the removal succeeds, leaving only
      the root. */
  method Session(user: string, d: string, f: string, data: seq<byte>, order: seq<string>)
      returns (read: Result<seq<byte>>, status: Status, final: FileSystem)
    requires IsSimpleName(d) && IsSimpleName(f) && d != "." && d != ".."
    requires 0 < |data| < PageSize
    requires NoDups(order) && "/" in order && "/" + d in order && "/" + d + "/" + f in order
    ensures read == Ok(data)
    ensures status == Done
    ensures final.files.Keys == {"/"} && final.cwd == "/"
  {
    SessionTouch(user, d, f);
    var s3 := Touch(Cd(Mkdir(New(user), "/" + d).fs, d).fs, f).fs;
    SessionTail(s3, d, f, data, order);
    var s4 := WriteFile(s3, f, data).fs;
    read := ReadFile(s4, f);
    var s6 := Rm(Cd(s4, "..").fs, d, order);
    status := s6.status;
    final := s6.fs;
  }
}

=== FILE: pages.dfy ===
/** The block store: a high-water mark and a FIFO free list of page offsets,
    over a byte-addressed container, plus the page walks used by the write
    and read paths of the engine. */
module Pages {

  /** Every allocation, write step and read step uses this page size. */
  const PageSize: nat := 1024

  newtype byte = x: int | 0 <= x < 256

  /** The backing container: byte address to byte. A byte that was never
      written reads as 0. */
  type Container = map<nat, byte>

  /** Allocator state and the container it hands pages out of. */
  datatype Store = Store(nextOffset: nat, freeList: seq<nat>, container: Container)

  /** The result of one allocation. */
  datatype Allocation = Allocation(store: Store, offset: nat)

  /** The state of a file being appended to: its pages and logical size. */
  datatype Appended = Appended(store: Store, pages: seq<nat>, size: nat)

  const InitStore := Store(0, [], map[])

  function Min(a: nat, b: nat): nat { if a <= b then a else b }

  function Get(c: Container, a: nat): byte {
    if a in c then c[a] else 0
  }

  predicate InRange(a: nat, base: nat, n: nat) {
    base <= a < base + n
  }

  /** `c` with `data` stored from address `base` on. */
  function WriteBytes(c: Container, base: nat, data: seq<byte>): (r: Container)
    ensures forall a: nat :: Get(r, a) == if base <= a < base + |data| then data[a - base] else Get(c, a)
  {
    c + map a: nat | base <= a < base + |data| && InRange(a, base, |data|) :: data[a - base]
  }

  function Zeros(n: nat): (z: seq<byte>)
    ensures |z| == n && forall i :: 0 <= i < n ==> z[i] == 0
  {
    seq(n, _ => 0)
  }

  /** `n` bytes of the container from address `base` on. */
  function Slice(c: Container, base: nat, n: nat): (r: seq<byte>)
    ensures |r| == n && forall t :: 0 <= t < n ==> r[t] == Get(c, base + t)
  {
    seq(n, t requires 0 <= t < n => Get(c, base + t))
  }

  // ---------------------------------------------------------------------
  // Allocation

  /** Takes the head of the free list if there is one, otherwise the page at
      the high-water mark, which then advances by `size`; the page is
      zero-filled in the container either way. */
  function AllocatePage(s: Store, size: nat): (r: Allocation)
    ensures s.freeList != [] ==>
              r.offset == s.freeList[0] && r.store.freeList == s.freeList[1..] && r.store.nextOffset == s.nextOffset
    ensures s.freeList == [] ==>
              r.offset == s.nextOffset && r.store.nextOffset == s.nextOffset + size && r.store.freeList == []
    ensures s.nextOffset <= r.store.nextOffset
    ensures forall a: nat :: Get(r.store.container, a) == if r.offset <= a < r.offset + size then 0 else Get(s.container, a)
  {
    var s1 := if s.freeList != [] then s.(freeList := s.freeList[1..]) else s.(nextOffset := s.nextOffset + size);
    var off := if s.freeList != [] then s.freeList[0] else s.nextOffset;
    Allocation(s1.(container := WriteBytes(s1.container, off, Zeros(size))), off)
  }

  /** `k` successive page allocations, with the offsets in the order handed out. */
  function AllocateMany(s: Store, k: nat): (r: (Store, seq<nat>))
    ensures |r.1| == k
    decreases k
  {
    if k == 0 then (s, [])
    else
      var a := AllocatePage(s, PageSize);
      var rest := AllocateMany(a.store, k - 1);
      (rest.0, [a.offset] + rest.1)
  }

  predicate Aligned(ps: seq<nat>) {
    forall x :: x in ps ==> x % PageSize == 0
  }

  predicate Below(ps: seq<nat>, bound: nat) {
    forall x :: x in ps ==> x < bound
  }

  /** Each element listed once. */
  predicate NoDups<T(==)>(ps: seq<T>) {
    forall i, j :: 0 <= i < j < |ps| ==> ps[i] != ps[j]
  }

  predicate Disjoint(ps: seq<nat>, qs: seq<nat>) {
    forall x :: x in ps ==> x !in qs
  }

  /** The allocator invariant: the mark and the free pages are page
      aligned, free pages lie below the mark and are listed once. */
  predicate StoreValid(s: Store) {
    && s.nextOffset % PageSize == 0
    && Aligned(s.freeList)
    && Below(s.freeList, s.nextOffset)
    && NoDups(s.freeList)
  }

  lemma InitStoreValid()
    ensures StoreValid(InitStore)
  {
  }

  /** A page allocation keeps the allocator invariant, and the page it hands
      out is aligned, below the new mark, no longer free, and was either free
      or fresh. */
  lemma {:induction false} AllocateKeepsStoreValid(s: Store)
    requires StoreValid(s)
    ensures var r := AllocatePage(s, PageSize);
            && StoreValid(r.store)
            && r.offset % PageSize == 0
            && r.offset < r.store.nextOffset
            && r.offset !in r.store.freeList
            && (r.offset in s.freeList || r.offset == s.nextOffset)
            && (forall x :: x in r.store.freeList ==> x in s.freeList)
  {
    var r := AllocatePage(s, PageSize);
    if s.freeList != [] {
      var fl := s.freeList;
      assert fl[0] in fl;
      forall x | x in fl[1..]
        ensures x in fl && x != fl[0]
      {
        var j :| 0 <= j < |fl[1..]| && fl[1..][j] == x;
        assert fl[j + 1] == x;
      }
      forall i, j | 0 <= i < j < |fl[1..]|
        ensures fl[1..][i] != fl[1..][j]
      {
        assert fl[1..][i] == fl[i + 1] && fl[1..][j] == fl[j + 1];
      }
    }
  }

  /** Freed pages are handed out again before the mark advances, in the
      order they were freed. */
  lemma {:induction false} FreedPagesReusedFirst(s: Store)
    ensures var r := AllocateMany(s, |s.freeList|);
            r.1 == s.freeList && r.0.nextOffset == s.nextOffset && r.0.freeList == []
    decreases |s.freeList|
  {
    if s.freeList != [] {
      var a := AllocatePage(s, PageSize);
      FreedPagesReusedFirst(a.store);
      assert s.freeList == [s.freeList[0]] + s.freeList[1..];
    }
  }

  /** With an empty free list, allocations hand out consecutive pages from
      the mark on. */
  lemma {:induction false} AllocateFromMark(s: Store, k: nat)
    requires s.freeList == []
    ensures var r := AllocateMany(s, k);
            && r.0.freeList == []
            && r.0.nextOffset == s.nextOffset + k * PageSize
            && forall i :: 0 <= i < k ==> r.1[i] == s.nextOffset + i * PageSize
    decreases k
  {
    if k > 0 {
      var a := AllocatePage(s, PageSize);
      AllocateFromMark(a.store, k - 1);
      var r := AllocateMany(s, k);
      var rest := AllocateMany(a.store, k - 1);
      forall i | 0 <= i < k
        ensures r.1[i] == s.nextOffset + i * PageSize
      {
        if i > 0 {
          assert r.1[i] == rest.1[i - 1];
        }
      }
    }
  }

  /** From the initial store, the i-th allocation returns offset i * 1024:
      every offset is page aligned and no offset is handed out twice. */
  lemma AllocationsFromInit(k: nat)
    ensures var r := AllocateMany(InitStore, k);
            && (forall i :: 0 <= i < k ==> r.1[i] == i * PageSize && r.1[i] % PageSize == 0)
            && NoDups(r.1)
  {
    AllocateFromMark(InitStore, k);
  }

  // ---------------------------------------------------------------------
  // Page arithmetic

  /** Number of pages needed to hold `size` bytes: the ceiling of size/1024. */
  function PagesFor(size: nat): nat {
    (size + PageSize - 1) / PageSize
  }

  /** Start of the page an address falls in. */
  function Base(a: nat): nat {
    a - a % PageSize
  }

  lemma DivModUnique(x: nat, q: nat, r: nat)
    requires r < PageSize && x == q * PageSize + r
    ensures x / PageSize == q && x % PageSize == r
  {
  }

  lemma PagesForFacts(size: nat)
    ensures size % PageSize == 0 ==> PagesFor(size) == size / PageSize
    ensures size % PageSize != 0 ==> PagesFor(size) == size / PageSize + 1
    ensures size <= PagesFor(size) * PageSize
  {
    var q := size / PageSize;
    var r := size % PageSize;
    if r == 0 {
      DivModUnique(size + PageSize - 1, q, PageSize - 1);
    } else {
      DivModUnique(size + PageSize - 1, q + 1, r - 1);
    }
  }

  /** An address within an aligned page lies in that page. */
  lemma BaseOf(p: nat, t: nat)
    requires p % PageSize == 0 && t < PageSize
    ensures (p + t) % PageSize == t && Base(p + t) == p
  {
    DivModUnique(p + t, p / PageSize, t);
  }

  /** An address within a page's span has that page as its base. */
  lemma BaseRange(p: nat, x: nat)
    requires p % PageSize == 0
    ensures p <= x < p + PageSize ==> Base(x) == p
  {
    if p <= x < p + PageSize {
      BaseOf(p, x - p);
    }
  }

  // ---------------------------------------------------------------------
  // File contents

  /** The bytes of a file of `size` bytes spread over `pages`: byte i sits
      at offset i % 1024 of page i / 1024. */
  function Content(c: Container, pages: seq<nat>, size: nat): (r: seq<byte>)
    requires size <= |pages| * PageSize
    ensures |r| == size
  {
    seq(size, i requires 0 <= i < size => Get(c, pages[i / PageSize] + i % PageSize))
  }

  /** The page walk of the read path: every page but the last contributes a
      full page, the last one contributes `lastLen` bytes. */
  function ReadLoop(c: Container, pages: seq<nat>, lastLen: nat): (r: seq<byte>)
    ensures |pages| > 0 ==> |r| == (|pages| - 1) * PageSize + lastLen
    ensures |pages| == 0 ==> r == []
  {
    if |pages| == 0 then []
    else if |pages| == 1 then Slice(c, pages[0], lastLen)
    else Slice(c, pages[0], PageSize) + ReadLoop(c, pages[1..], lastLen)
  }

  /** What a byte sequence read page by page amounts to: the page walk over
      `pages` with `lastLen` bytes taken from the last page is the content of
      a file whose last page holds `lastLen` bytes. */
  lemma {:induction false} ReadLoopIsContent(c: Container, pages: seq<nat>, lastLen: nat)
    requires |pages| > 0 && lastLen <= PageSize
    ensures ReadLoop(c, pages, lastLen) == Content(c, pages, (|pages| - 1) * PageSize + lastLen)
    decreases |pages|
  {
    var m := (|pages| - 1) * PageSize + lastLen;
    var whole := Content(c, pages, m);
    if |pages| == 1 {
      forall i | 0 <= i < lastLen
        ensures whole[i] == Get(c, pages[0] + i)
      {
        DivModUnique(i, 0, i);
      }
    } else {
      var tail := pages[1..];
      ReadLoopIsContent(c, tail, lastLen);
      var rest := Content(c, tail, m - PageSize);
      forall i | 0 <= i < m
        ensures whole[i] == (Slice(c, pages[0], PageSize) + rest)[i]
      {
        if i < PageSize {
          DivModUnique(i, 0, i);
        } else {
          var j := i - PageSize;
          DivModUnique(j, j / PageSize, j % PageSize);
          DivModUnique(i, j / PageSize + 1, j % PageSize);
          assert tail[j / PageSize] == pages[j / PageSize + 1];
        }
      }
    }
  }

  /** A file's content is extended, never rewritten, by growing its size. */
  lemma ContentPrefix(c: Container, pages: seq<nat>, size: nat, size': nat)
    requires size <= size' <= |pages| * PageSize
    ensures Content(c, pages, size) == Content(c, pages, size')[..size]
  {
  }

  /** The engine's read of a file of `size` bytes in `pages` walks every page
      and takes size % 1024 bytes from the last one. It returns the whole
      content unless the size is a positive multiple of 1024, in which case
      the last page contributes nothing. */
  lemma ReadLoopOfFile(c: Container, pages: seq<nat>, size: nat)
    requires |pages| == PagesFor(size)
    ensures size <= |pages| * PageSize
    ensures (size == 0 || size % PageSize != 0) ==> ReadLoop(c, pages, size % PageSize) == Content(c, pages, size)
    ensures (size > 0 && size % PageSize == 0) ==>
              ReadLoop(c, pages, size % PageSize) == Content(c, pages, size)[..size - PageSize]
  {
    PagesForFacts(size);
    if size > 0 {
      ReadLoopIsContent(c, pages, size % PageSize);
      if size % PageSize == 0 {
        ContentPrefix(c, pages, size - PageSize, size);
      }
    }
  }

  /** The page walk sees only the bytes of the pages it walks. */
  lemma {:induction false} ReadLoopFrame(c1: Container, c2: Container, pages: seq<nat>, lastLen: nat)
    requires Aligned(pages) && lastLen <= PageSize
    requires forall a: nat :: Base(a) in pages ==> Get(c1, a) == Get(c2, a)
    ensures ReadLoop(c1, pages, lastLen) == ReadLoop(c2, pages, lastLen)
    decreases |pages|
  {
    if pages != [] {
      var n := if |pages| == 1 then lastLen else PageSize;
      assert pages[0] in pages;
      forall t | 0 <= t < n
        ensures Slice(c1, pages[0], n)[t] == Slice(c2, pages[0], n)[t]
      {
        BaseOf(pages[0], t);
      }
      if |pages| > 1 {
        assert forall x :: x in pages[1..] ==> x in pages;
        ReadLoopFrame(c1, c2, pages[1..], lastLen);
      }
    }
  }

  /** A file's content depends only on the bytes of its own pages. */
  lemma ContentFrame(c1: Container, c2: Container, pages: seq<nat>, size: nat)
    requires size <= |pages| * PageSize && Aligned(pages)
    requires forall a: nat :: Base(a) in pages ==> Get(c1, a) == Get(c2, a)
    ensures Content(c1, pages, size) == Content(c2, pages, size)
  {
    forall i | 0 <= i < size
      ensures Content(c1, pages, size)[i] == Content(c2, pages, size)[i]
    {
      var p := pages[i / PageSize];
      assert p in pages;
      BaseOf(p, i % PageSize);
    }
  }

  // ---------------------------------------------------------------------
  // Appending

  /** The allocator invariant together with what the append path needs of
      one file: its pages are aligned, in use (below the mark and not free),
      listed once, and exactly as many as its size needs. */
  ghost predicate Fits(s: Store, pages: seq<nat>, size: nat) {
    && StoreValid(s)
    && Aligned(pages)
    && Below(pages, s.nextOffset)
    && NoDups(pages)
    && Disjoint(pages, s.freeList)
    && |pages| == PagesFor(size)
    && size <= |pages| * PageSize
  }

  /** Bytes copied by one step of the write loop: the rest of the current
      page or the rest of the input, whichever is shorter. */
  function ChunkLen(size: nat, remaining: nat): nat {
    Min(PageSize - size % PageSize, remaining)
  }

  lemma PagesForAfterChunk(size: nat, n: nat)
    requires 0 < n <= PageSize - size % PageSize
    ensures PagesFor(size + n) == size / PageSize + 1
  {
    DivModUnique(size + n + PageSize - 1, size / PageSize + 1, size % PageSize + n - 1);
  }

  /** One step of the write loop: a page is allocated when the logical end
      sits on a page boundary, then as much of `data` as fits is copied into
      the last page at offset size % 1024. */
  function AppendChunk(s: Store, pages: seq<nat>, size: nat, data: seq<byte>): (r: Appended)
    requires data != [] && (size % PageSize == 0 || pages != [])
    ensures r.size == size + ChunkLen(size, |data|)
    ensures pages <= r.pages && r.pages != []
    ensures s.nextOffset <= r.store.nextOffset
    ensures |pages| == PagesFor(size) ==> |r.pages| == PagesFor(r.size)
  {
    var atBoundary := size % PageSize == 0;
    var a := AllocatePage(s, PageSize);
    var s1 := if atBoundary then a.store else s;
    var pages1 := if atBoundary then pages + [a.offset] else pages;
    var n := ChunkLen(size, |data|);
    PagesForFacts(size);
    PagesForAfterChunk(size, n);
    Appended(s1.(container := WriteBytes(s1.container, pages1[|pages1| - 1] + size % PageSize, data[..n])),
             pages1, size + n)
  }

  /** The write loop: copies `data` chunk by chunk past the logical end
      `size` of a file held in `pages`. */
  function AppendLoop(s: Store, pages: seq<nat>, size: nat, data: seq<byte>): (r: Appended)
    requires data == [] || size % PageSize == 0 || pages != []
    ensures r.size == size + |data|
    ensures pages <= r.pages
    ensures s.nextOffset <= r.store.nextOffset
    ensures |pages| == PagesFor(size) ==> |r.pages| == PagesFor(r.size)
    decreases |data|
  {
    if data == [] then Appended(s, pages, size)
    else
      var st := AppendChunk(s, pages, size, data);
      AppendLoop(st.store, st.pages, st.size, data[ChunkLen(size, |data|)..])
  }

  lemma NoDupsSnoc(ps: seq<nat>, x: nat)
    requires NoDups(ps) && x !in ps
    ensures NoDups(ps + [x])
  {
    var qs := ps + [x];
    forall i, j | 0 <= i < j < |qs|
      ensures qs[i] != qs[j]
    {
      assert qs[i] == ps[i];
      if j < |ps| {
        assert qs[j] == ps[j];
      }
    }
  }

  lemma PrefixMembers(ps: seq<nat>, qs: seq<nat>)
    requires ps <= qs
    ensures forall x :: x in ps ==> x in qs
  {
    forall x | x in ps
      ensures x in qs
    {
      var i :| 0 <= i < |ps| && ps[i] == x;
      assert qs[i] == x;
    }
  }

  /** One step of the write loop keeps the file fitting and takes any new
      page from the free list or the mark. */
  lemma {:induction false} AppendChunkFits(s: Store, pages: seq<nat>, size: nat, data: seq<byte>)
    requires Fits(s, pages, size) && data != []
    ensures var r := AppendChunk(s, pages, size, data);
            && Fits(r.store, r.pages, r.size)
            && r.pages[|r.pages| - 1] % PageSize == 0
            && |r.pages| - 1 == size / PageSize
            && (size % PageSize != 0 ==> r.pages == pages)
            && (size % PageSize == 0 ==> r.pages == pages + [AllocatePage(s, PageSize).offset])
            && (forall x :: x in r.pages && x !in pages ==> x in s.freeList || s.nextOffset <= x)
            && (forall x :: x in r.store.freeList ==> x in s.freeList)
  {
    var r := AppendChunk(s, pages, size, data);
    var a := AllocatePage(s, PageSize);
    PagesForFacts(size);
    PagesForFacts(r.size);
    if size % PageSize == 0 {
      AllocateKeepsStoreValid(s);
      assert a.offset !in pages;
      NoDupsSnoc(pages, a.offset);
    } else {
      assert r.pages[|r.pages| - 1] in pages;
    }
  }

  /** One step of the write loop writes only inside the file's pages. */
  lemma {:induction false} AppendChunkFrame(s: Store, pages: seq<nat>, size: nat, data: seq<byte>)
    requires Fits(s, pages, size) && data != []
    ensures var r := AppendChunk(s, pages, size, data);
            forall a: nat :: Base(a) !in r.pages ==> Get(r.store.container, a) == Get(s.container, a)
  {
    var r := AppendChunk(s, pages, size, data);
    AppendChunkFits(s, pages, size, data);
    var n := ChunkLen(size, |data|);
    var a := AllocatePage(s, PageSize);
    var last := r.pages[|r.pages| - 1];
    var at := last + size % PageSize;
    forall x: nat | Base(x) !in r.pages
      ensures Get(r.store.container, x) == Get(s.container, x)
    {
      if at <= x < at + n {
        BaseOf(last, x - last);
      }
      if size % PageSize == 0 && a.offset <= x < a.offset + PageSize {
        assert a.offset in r.pages;
        BaseOf(a.offset, x - a.offset);
      }
    }
  }

  /** An old byte of the file is not touched by one step of the write loop. */
  lemma {:induction false} AppendChunkKeepsByte(s: Store, pages: seq<nat>, size: nat, data: seq<byte>, i: nat)
    requires Fits(s, pages, size) && data != [] && i < size
    ensures var r := AppendChunk(s, pages, size, data);
            Get(r.store.container, pages[i / PageSize] + i % PageSize) == Get(s.container, pages[i / PageSize] + i % PageSize)
  {
    var r := AppendChunk(s, pages, size, data);
    AppendChunkFits(s, pages, size, data);
    var n := ChunkLen(size, |data|);
    var a := AllocatePage(s, PageSize);
    var last := r.pages[|r.pages| - 1];
    var q := size / PageSize;
    var at := last + size % PageSize;
    var pi := i / PageSize;
    var t := i % PageSize;
    assert pages[pi] in pages;
    BaseOf(pages[pi], t);
    var x := pages[pi] + t;
    AllocateKeepsStoreValid(s);
    BaseRange(last, x);
    BaseRange(a.offset, x);
    if size % PageSize == 0 {
      assert a.offset !in pages;
    }
  }

  /** A byte of the chunk lands where the file's content expects it. */
  lemma {:induction false} AppendChunkNewByte(s: Store, pages: seq<nat>, size: nat, data: seq<byte>, j: nat)
    requires Fits(s, pages, size) && data != [] && j < ChunkLen(size, |data|)
    ensures var r := AppendChunk(s, pages, size, data);
            size + j < |r.pages| * PageSize &&
            Get(r.store.container, r.pages[(size + j) / PageSize] + (size + j) % PageSize) == data[j]
  {
    AppendChunkFits(s, pages, size, data);
    DivModUnique(size + j, size / PageSize, size % PageSize + j);
  }

  /** An old byte of the file reads the same after one step of the write loop. */
  lemma {:induction false} AppendChunkOldByte(s: Store, pages: seq<nat>, size: nat, data: seq<byte>, i: nat)
    requires Fits(s, pages, size) && data != [] && i < size
    ensures var r := AppendChunk(s, pages, size, data);
            r.size <= |r.pages| * PageSize &&
            Content(r.store.container, r.pages, r.size)[i] == Content(s.container, pages, size)[i]
  {
    var r := AppendChunk(s, pages, size, data);
    AppendChunkFits(s, pages, size, data);
    var before := Content(s.container, pages, size);
    var after := Content(r.store.container, r.pages, r.size);
    AppendChunkKeepsByte(s, pages, size, data, i);
    assert r.pages[i / PageSize] == pages[i / PageSize];
    assert after[i] == before[i];
  }

  /** The chunk's bytes follow the old content after one step of the write loop. */
  lemma {:induction false} AppendChunkChunkByte(s: Store, pages: seq<nat>, size: nat, data: seq<byte>, j: nat)
    requires Fits(s, pages, size) && data != [] && j < ChunkLen(size, |data|)
    ensures var r := AppendChunk(s, pages, size, data);
            r.size <= |r.pages| * PageSize &&
            Content(r.store.container, r.pages, r.size)[size + j] == data[j]
  {
    AppendChunkFits(s, pages, size, data);
    AppendChunkNewByte(s, pages, size, data, j);
  }

  /** Byte `i` after one step of the write loop is byte `i` of the old
      content followed by the chunk. */
  lemma {:induction false} AppendChunkContentAt(s: Store, pages: seq<nat>, size: nat, data: seq<byte>, i: nat)
    requires Fits(s, pages, size) && data != [] && i < size + ChunkLen(size, |data|)
    ensures var r := AppendChunk(s, pages, size, data);
            r.size <= |r.pages| * PageSize &&
            Content(r.store.container, r.pages, r.size)[i] ==
              (Content(s.container, pages, size) + data[..ChunkLen(size, |data|)])[i]
  {
    if i < size {
      AppendChunkOldByte(s, pages, size, data, i);
    } else {
      AppendChunkChunkByte(s, pages, size, data, i - size);
    }
  }

  /** Sequences that agree index by index are equal. */
  lemma SameBytes(a: seq<byte>, b: seq<byte>)
    requires |a| == |b| && forall i :: 0 <= i < |a| ==> a[i] == b[i]
    ensures a == b
  {
  }

  /** One step of the write loop appends the chunk to the file's content. */
  lemma {:induction false} AppendChunkContent(s: Store, pages: seq<nat>, size: nat, data: seq<byte>)
    requires Fits(s, pages, size) && data != []
    ensures var r := AppendChunk(s, pages, size, data);
            r.size <= |r.pages| * PageSize &&
            Content(r.store.container, r.pages, r.size) == Content(s.container, pages, size) + data[..ChunkLen(size, |data|)]
  {
    var r := AppendChunk(s, pages, size, data);
    AppendChunkFits(s, pages, size, data);
    var after := Content(r.store.container, r.pages, r.size);
    var want := Content(s.container, pages, size) + data[..ChunkLen(size, |data|)];
    forall i | 0 <= i < |after|
      ensures after[i] == want[i]
    {
      AppendChunkContentAt(s, pages, size, data, i);
    }
    SameBytes(after, want);
  }

  /** The write loop keeps the file fitting and takes every new page from
      the free list or from above the old mark. */
  lemma {:induction false} AppendLoopFits(s: Store, pages: seq<nat>, size: nat, data: seq<byte>)
    requires Fits(s, pages, size)
    ensures var r := AppendLoop(s, pages, size, data);
            && Fits(r.store, r.pages, r.size)
            && (forall x :: x in r.pages && x !in pages ==> x in s.freeList || s.nextOffset <= x)
            && (forall x :: x in r.store.freeList ==> x in s.freeList)
    decreases |data|
  {
    if data != [] {
      var st := AppendChunk(s, pages, size, data);
      AppendChunkFits(s, pages, size, data);
      AppendLoopFits(st.store, st.pages, st.size, data[ChunkLen(size, |data|)..]);
    }
  }

  /** The write loop writes only inside the file's final pages. */
  lemma {:induction false} AppendLoopFrame(s: Store, pages: seq<nat>, size: nat, data: seq<byte>)
    requires Fits(s, pages, size)
    ensures var r := AppendLoop(s, pages, size, data);
            forall a: nat :: Base(a) !in r.pages ==> Get(r.store.container, a) == Get(s.container, a)
    decreases |data|
  {
    if data != [] {
      var st := AppendChunk(s, pages, size, data);
      var r := AppendLoop(s, pages, size, data);
      AppendChunkFits(s, pages, size, data);
      AppendChunkFrame(s, pages, size, data);
      AppendLoopFrame(st.store, st.pages, st.size, data[ChunkLen(size, |data|)..]);
      PrefixMembers(st.pages, r.pages);
    }
  }

  /** The write loop appends exactly `data` to the file's content. */
  lemma {:induction false} AppendLoopContent(s: Store, pages: seq<nat>, size: nat, data: seq<byte>)
    requires Fits(s, pages, size)
    ensures var r := AppendLoop(s, pages, size, data);
            r.size <= |r.pages| * PageSize &&
            Content(r.store.container, r.pages, r.size) == Content(s.container, pages, size) + data
    decreases |data|
  {
    var r := AppendLoop(s, pages, size, data);
    assert r.size <= |r.pages| * PageSize by {
      AppendLoopFits(s, pages, size, data);
    }
    if data != [] {
      var n := ChunkLen(size, |data|);
      var st := AppendChunk(s, pages, size, data);
      AppendChunkFits(s, pages, size, data);
      AppendChunkContent(s, pages, size, data);
      AppendLoopContent(st.store, st.pages, st.size, data[n..]);
      SplitJoin(Content(s.container, pages, size), data, n);
    }
  }

  lemma SplitJoin(a: seq<byte>, b: seq<byte>, n: nat)
    requires n <= |b|
    ensures (a + b[..n]) + b[n..] == a + b
  {
    assert b[..n] + b[n..] == b;
  }

  /** Writing `data` into an empty file, then walking its pages as the read
      path does, gives `data` back, less its last page when its length is a
      positive multiple of 1024. */
  lemma {:induction false} FreshAppendReadLoop(s: Store, data: seq<byte>)
    requires StoreValid(s)
    ensures var r := AppendLoop(s, [], 0, data);
            && ((data == [] || |data| % PageSize != 0) ==>
                  ReadLoop(r.store.container, r.pages, r.size % PageSize) == data)
            && ((data != [] && |data| % PageSize == 0) ==>
                  ReadLoop(r.store.container, r.pages, r.size % PageSize) == data[..|data| - PageSize])
  {
    var r := AppendLoop(s, [], 0, data);
    assert r.size == |data| && |r.pages| == PagesFor(r.size) by {
      assert PagesFor(0) == 0;
    }
    assert Content(r.store.container, r.pages, r.size) == data by {
      assert Fits(s, [], 0);
      AppendLoopContent(s, [], 0, data);
      assert Content(s.container, [], 0) + data == data;
    }
    ReadLoopOfFile(r.store.container, r.pages, r.size);
  }
}

=== FILE: paths.dfy ===
/** The path resolver: turns a user-supplied name into the key of the entry
    table, given the current-directory cursor, and computes the parent path
    recorded for a newly created entry. */
module Paths {

  /** A name is absolute when it starts with the separator. */
  predicate IsAbsolute(p: string) {
    |p| > 0 && p[0] == '/'
  }

  /** A cursor from which every resolved name is absolute: the empty string
      (reached only through a parent pointer of "") or an absolute path. */
  predicate IsAnchored(cwd: string) {
    cwd == "" || IsAbsolute(cwd)
  }

  /** A directory path in normal form: the root, or an absolute path without
      a trailing separator. */
  predicate IsNormalDir(cwd: string) {
    cwd == "/" || (IsAbsolute(cwd) && cwd[|cwd| - 1] != '/')
  }

  /** A single path component: non-empty and free of separators. */
  predicate IsSimpleName(n: string) {
    n != "" && '/' !in n
  }

  /** Resolves `name` against the cursor `cwd`: absolute names are kept,
      relative ones are joined to the cursor with one separator. */
  function GetFullPath(cwd: string, name: string): (r: string)
    ensures IsAbsolute(name) ==> r == name
    ensures IsAnchored(cwd) ==> IsAbsolute(r)
    ensures !IsAbsolute(name) ==> |name| < |r| && r[|r| - |name|..] == name && r[|r| - |name| - 1] == '/'
    ensures !IsAbsolute(name) && cwd == "/" ==> |r| == |name| + 1
    ensures !IsAbsolute(name) && cwd != "/" ==> |r| == |cwd| + 1 + |name| && r[..|cwd|] == cwd
  {
    if IsAbsolute(name) then name
    else if cwd == "/" then "/" + name
    else cwd + "/" + name
  }

  /** `s` without its trailing separators. */
  function StripTrailingSlashes(s: string): (r: string)
    ensures r <= s
    ensures r == [] || r[|r| - 1] != '/'
    ensures forall i :: |r| <= i < |s| ==> s[i] == '/'
  {
    if |s| > 0 && s[|s| - 1] == '/' then StripTrailingSlashes(s[..|s| - 1]) else s
  }

  /** Index of the last separator in `s`, or -1 when there is none. */
  function LastSlash(s: string): (i: int)
    ensures -1 <= i < |s|
    ensures 0 <= i ==> s[i] == '/'
    ensures forall j :: i < j < |s| ==> s[j] != '/'
  {
    if |s| == 0 then -1
    else if s[|s| - 1] == '/' then |s| - 1
    else LastSlash(s[..|s| - 1])
  }

  /** The parent of a path as the standard library's `Path::parent` computes
      it, with a missing parent (the root, the empty path) rendered as "":
      trailing separators are ignored, the last component is dropped, and the
      separators before it are dropped too unless only the root remains. */
  function ExtractParentPaths(path: string): (r: string)
    ensures r <= path
    ensures path != "" ==> |r| < |path|
    ensures r == "" || r == "/" || r[|r| - 1] != '/'
    ensures IsAbsolute(path) ==> IsAnchored(r)
  {
    var s := StripTrailingSlashes(path);
    var i := LastSlash(s);
    if s == [] || i < 0 then ""
    else
      var h := StripTrailingSlashes(s[..i]);
      if h == [] then "/" else h
  }

  /** A path with no separator has no parent directory component. */
  lemma ParentOfSimpleName(n: string)
    requires '/' !in n
    ensures ExtractParentPaths(n) == ""
  {
    var s := StripTrailingSlashes(n);
    if s != [] {
      assert s[|s| - 1] in n;
    }
  }

  /** Splitting a joined path gives back the directory part: the parent of
      `d + "/" + n` is `d` without trailing separators, or the root when
      nothing is left of `d`. */
  lemma {:induction false} ParentOfJoin(d: string, n: string)
    requires IsSimpleName(n)
    ensures ExtractParentPaths(d + "/" + n) ==
              (if StripTrailingSlashes(d) == "" then "/" else StripTrailingSlashes(d))
  {
    var p := d + "/" + n;
    assert p[|p| - 1] == n[|n| - 1] && n[|n| - 1] in n;
    assert StripTrailingSlashes(p) == p;
    forall j | |d| < j < |p|
      ensures p[j] != '/'
    {
      assert p[j] == n[j - |d| - 1] && n[j - |d| - 1] in n;
    }
    assert p[|d|] == '/';
    LastSlashIs(p, |d|);
    assert p[..|d|] == d;
    ParentAtLastSlash(p, |d|);
  }

  /** The parent read off at a known last separator. */
  lemma ParentAtLastSlash(p: string, i: nat)
    requires StripTrailingSlashes(p) == p && i < |p| && LastSlash(p) == i
    ensures ExtractParentPaths(p) ==
              (if StripTrailingSlashes(p[..i]) == "" then "/" else StripTrailingSlashes(p[..i]))
  {
  }

  /** The last separator is the one after which none follows. */
  lemma LastSlashIs(s: string, i: int)
    requires 0 <= i < |s| && s[i] == '/'
    requires forall j :: i < j < |s| ==> s[j] != '/'
    ensures LastSlash(s) == i
  {
  }

  /** Resolving a simple name against a normal cursor and taking the parent
      of the result gives the cursor back: the resolver joins with exactly
      one separator, also at the root. */
  lemma ResolveThenParent(cwd: string, n: string)
    requires IsNormalDir(cwd) && IsSimpleName(n)
    ensures ExtractParentPaths(GetFullPath(cwd, n)) == cwd
  {
    if cwd == "/" {
      assert GetFullPath(cwd, n) == "" + "/" + n;
      ParentOfJoin("", n);
    } else {
      ParentOfJoin(cwd, n);
    }
  }

  /** A resolved absolute key resolves to itself from any cursor. */
  lemma ResolveIdempotent(cwd: string, cwd': string, name: string)
    requires IsAnchored(cwd)
    ensures GetFullPath(cwd', GetFullPath(cwd, name)) == GetFullPath(cwd, name)
  {
  }

  /** Stripping trailing separators only looks at the tail: a prefix is kept
      whole when something other than separators follows it. */
  lemma {:induction false} StripAppend(p: string, s: string)
    requires StripTrailingSlashes(s) != ""
    ensures StripTrailingSlashes(p + s) == p + StripTrailingSlashes(s)
    decreases |s|
  {
    if s[|s| - 1] == '/' {
      assert (p + s)[..|p + s| - 1] == p + s[..|s| - 1];
      StripAppend(p, s[..|s| - 1]);
    }
  }

  /** A component-free prefix: every non-empty string that does not start
      with a separator keeps something when trailing separators go. */
  lemma StripKeepsHead(s: string)
    requires s != "" && s[0] != '/'
    ensures StripTrailingSlashes(s) != ""
  {
  }

  /** A path that does not end in a separator has its parent split at its
      last separator, whatever precedes it. */
  lemma {:induction false} ParentAfterPrefix(p: string, name: string)
    requires IsAbsolute(p) && p[|p| - 1] == '/'
    requires name != "" && name[0] != '/' && name[|name| - 1] != '/' && '/' in name
    ensures ExtractParentPaths(p + name) == p + ExtractParentPaths(name)
  {
    var full := p + name;
    var i := LastSlash(name);
    var j :| 0 <= j < |name| && name[j] == '/';
    assert 0 < i;
    assert StripTrailingSlashes(name) == name;
    assert full[|full| - 1] == name[|name| - 1];
    assert StripTrailingSlashes(full) == full;
    assert full[|p| + i] == '/';
    forall k | |p| + i < k < |full|
      ensures full[k] != '/'
    {
      assert full[k] == name[k - |p|];
    }
    LastSlashIs(full, |p| + i);
    assert full[..|p| + i] == p + name[..i];
    StripKeepsHead(name[..i]);
    StripAppend(p, name[..i]);
    ParentAtLastSlash(full, |p| + i);
    ParentAtLastSlash(name, i);
  }

  /** A trailing separator does not change the parent. */
  lemma ParentIgnoresTrailingSlash(p: string)
    ensures ExtractParentPaths(p + "/") == ExtractParentPaths(p)
  {
    assert (p + "/")[..|p|] == p;
  }
}

=== FILE: results.dfy ===
/** Typed failures of the storage engine and the outcome of a state transition. */
module Results {

  /** The failure kinds the engine reports. `NotADirectory` is the engine's
      `Other` error carrying the message "Not a directory". */
  datatype Error = AlreadyExists | NotFound | PermissionDenied | NotADirectory

  datatype Option<T> = None | Some(value: T)

  /** Outcome of an operation that returns no value. */
  datatype Status = Done | Failed(error: Error)

  /** Outcome of an operation that returns a value and does not change state. */
  datatype Result<T> = Ok(value: T) | Err(error: Error)
}
